=== FILE: README.md ===
# Per-object permissions, modelled in Dafny

The system stores permission triples `(subject, predicate, object)`, read as
"subject may perform predicate on object". A backend offers three bulk
operations on them:

- `create(triples)` stores the triples and reports them back;
- `read(subjects, predicates, objects)` returns the stored triples that pass a filter;
- `delete(subjects, predicates, objects)` removes those triples and returns them.

A filter has three components. A triple passes when every component that is
given contains the triple's matching field. So the filter is an AND across
components and an OR within a component. An absent or empty component
constrains nothing.

This project models the abstract contract and five implementations of it:

| file | module | what it models |
|---|---|---|
| `base.dfy` | `Base` | `Option`, `Result`, the element set of a sequence, enumeration of a finite set |
| `triples.dfy` | `Triples` | triples, filters, the filter predicate |
| `protocol.dfy` | `Protocol` | the backend contract, stated over the abstract set of stored triples |
| `in_memory.dfy` | `InMemory` | the set-backed backend and its early-return filter |
| `redis_keys.dfy` | `RedisKeys` | the key format `perms:<subject>:<object>`, `str.split(':')`, key parsing |
| `redis.dfy` | `Redis` | the key/value backend: one set of predicates per (subject, object) key |
| `postgres.dfy` | `Postgres` | WHERE-clause construction, statement text, the table, the table-provisioning flag |
| `mongo.dfy` | `Mongo` | query-document construction, the collection with generated ids, the index flag |
| `legacy_in_memory.dfy` | `LegacyInMemory` | the older set-of-tuples backend |

Each current backend (in-memory, Redis, Postgres, MongoDB) gets an
abstraction to the set of stored triples, and its operations are proved to
meet the predicates in `Protocol`:

- `CreateMeets`: the store afterwards is the store before, plus the input triples;
- `ReadMeets`: the result is exactly the stored triples that match the filter;
- `DeleteMeets`: the store afterwards has exactly the non-matching triples, and the result is exactly the removed ones.

The legacy in-memory backend is modelled on its own terms. Its `Read` is
related to the current in-memory `Read` (`LegacyInMemory.ReadAgreesWithInMemory`),
and its `Delete` is proved to fail `DeleteMeets` (`LegacyInMemory.DeleteMissesContract`).

Identifiers (UUIDs in the system) are their canonical text form, a `string`.
Formatting a UUID with `str()` is the identity in this model.

Facts about the code that shape the model:

- **How each store holds triples.** The in-memory backends keep a Python set, and Redis keeps one set of predicates per key, so a triple is stored at most once there. MongoDB's `create` calls `insert_many` with one document per input triple, so creating a triple twice stores two documents (`Mongo.CreateTwiceStoresTwice`). Postgres `create` runs an insert statement loaded from a SQL file that is not part of this model; the model assumes a plain insert and keeps the table as a sequence of rows. For both, idempotence holds for the set of stored triples, not for the rows or documents.
- **What `create` returns.** The in-memory `create` is annotated `-> Set[Triple]` but returns the list of input triples (src/per_object_permissions/backends/in_memory_backend.py:40,46). Redis and MongoDB also return the input list, duplicates included. Postgres returns the set of the inserted triples (src/per_object_permissions/backends/postgres/backend.py:86). The legacy `create` is annotated to return a tuple but returns nothing.
- **MongoDB `create` on an empty input.** The backend hands `insert_many` a generator, which is truthy even when empty. The driver's bulk write then raises `InvalidOperation` for the empty batch, after the indexes have been created. `Mongo.Create` models this as a failure that leaves the index flag set.
- **Legacy delete.** The legacy in-memory backend's `delete` has the body `pass`. It removes nothing and returns nothing (src/backends/in_memory_backend.py:41-45).
- **Colons in Redis identifiers.** The Redis backend assumes identifiers contain no `:`. If an identifier contains one, `create` writes a key that every later `read` or `delete` fails to parse (`Redis.ColonIdBreaksScan`). UUID text never contains `:`.

## Model

| member | source | states |
|---|---|---|
| Triples.UnfilteredMatchesAll | src/per_object_permissions/backends/in_memory_backend.py:16-26 | a filter with no components lets every triple through |
| Triples.MatchesIsConjunction | src/per_object_permissions/backends/in_memory_backend.py:19-26 | a triple passes iff each of the three components, taken alone, lets it through (AND across components) |
| Triples.ComponentIsDisjunction | src/per_object_permissions/backends/in_memory_backend.py:19-24 | for each of the three fields, splitting its non-empty component into two lists, a triple passes iff it passes with one list or the other (OR within a component) |
| Triples.MatchesByField | src/per_object_permissions/backends/in_memory_backend.py:19-26 | a triple matches iff, for every field whose component is non-empty, the component holds the triple's value in that field |
| Protocol.ReadUnfilteredIsAll | src/per_object_permissions/protocols.py:19-26 | a read with no filter components returns every stored triple |
| Protocol.DeleteUnfilteredIsAll | src/per_object_permissions/protocols.py:28-35 | a delete with no filter components empties the store and returns everything that was stored |
| Protocol.CreateIsIdempotent | tests/unit/test_backends/test_in_memory_backend.py:96-103 | creating the same triples a second time leaves the stored set unchanged |
| Protocol.DeleteThenNothingMatches | src/per_object_permissions/protocols.py:28-35 | after a delete that meets the contract, nothing in the store matches the filter |
| InMemory.FilterPred | src/per_object_permissions/backends/in_memory_backend.py:11-28 | the early-return filter closure accepts a triple iff the triple matches the filter |
| InMemory.Init | src/per_object_permissions/backends/in_memory_backend.py:34-35 | a backend built from initial data holds exactly what creating that data in an empty backend would hold |
| InMemory.Create | src/per_object_permissions/backends/in_memory_backend.py:40-46 | create meets the create contract and reports exactly its input |
| InMemory.Read | src/per_object_permissions/backends/in_memory_backend.py:48-54 | read meets the read contract |
| InMemory.Delete | src/per_object_permissions/backends/in_memory_backend.py:56-64 | delete returns what a read with the same filter returns, and meets the delete contract |
| InMemory.CreateTwiceIsCreateOnce | tests/unit/test_backends/test_in_memory_backend.py:96-103 | two identical creates leave the same backend as one |
| InMemory.ReadUnfilteredIsStore | tests/unit/test_backends/test_in_memory_backend.py:106-123 | a read with no filter returns the whole store |
| InMemory.DeleteThenReadIsEmpty | src/per_object_permissions/backends/in_memory_backend.py:56-64 | after a delete, a read with the same filter finds nothing |
| InMemory.Scenario | src/per_object_permissions/backends/in_memory_backend.py:40-64 | for a store of (s1, read, o1), (s1, write, o1) and (s2, read, o1): the results of reads by subject and by predicate, of deleting (s1, write), and of reading afterwards |
| Base.Enumerate | src/per_object_permissions/backends/redis_backend.py:89-90 | listing a set's members yields each member once and nothing else |
| RedisKeys.FormatKey | src/per_object_permissions/backends/redis_backend.py:42 | every key a create writes lies in the namespace that the scan pattern matches |
| RedisKeys.Split | src/per_object_permissions/backends/redis_backend.py:68 | splitting yields at least one piece, and no piece contains the separator |
| RedisKeys.ParseKey | src/per_object_permissions/backends/redis_backend.py:68 | unpacking succeeds iff the key has exactly two separators, and the subject and object it yields are colon-free |
| RedisKeys.JoinSplit | src/per_object_permissions/backends/redis_backend.py:68 | joining the pieces of a split with the separator gives back the original key |
| RedisKeys.SplitJoin | src/per_object_permissions/backends/redis_backend.py:68 | splitting a join of separator-free pieces gives back the pieces |
| RedisKeys.SplitCount | src/per_object_permissions/backends/redis_backend.py:68 | a split has one more piece than the key has separators |
| RedisKeys.ParseFormat | src/per_object_permissions/backends/redis_backend.py:68 | a key written for colon-free identifiers parses back to the same subject and object |
| RedisKeys.ColonBreaksParse | src/per_object_permissions/backends/redis_backend.py:68 | a key written for an identifier containing a colon does not split into three pieces, so parsing fails |
| RedisKeys.ParseFormatIff | src/per_object_permissions/backends/redis_backend.py:68 | a written key parses back iff both identifiers are colon-free |
| RedisKeys.FormatParse | src/per_object_permissions/backends/redis_backend.py:68 | every namespace key that parses is the key written for its parsed pair |
| RedisKeys.FormatKeyInjective | src/per_object_permissions/backends/redis_backend.py:42 | distinct colon-free (subject, object) pairs get distinct keys |
| Redis.SRem | src/per_object_permissions/backends/redis_backend.py:133-134 | set-remove drops the member from that key only, and reports 1 iff the member was there |
| Redis.SAdd | src/per_object_permissions/backends/redis_backend.py:42 | set-add puts the member into that key's set and changes no other key |
| Redis.Members | src/per_object_permissions/backends/redis_backend.py:89-90 | a key reads as the empty set iff it is absent or holds nothing |
| Redis.AbsMembership | src/per_object_permissions/backends/redis_backend.py:42 | a triple is stored iff its predicate is in the set under the key for its subject and object |
| Redis.Abs | src/per_object_permissions/backends/redis_backend.py:41-42 | every triple the keyspace represents has colon-free identifiers |
| Redis.AtKey | src/per_object_permissions/backends/redis_backend.py:82-94 | the stored triples under one parsed key are exactly its pair combined with each member of the key's set |
| Redis.Create | src/per_object_permissions/backends/redis_backend.py:38-46 | create reports exactly its input; with colon-free identifiers it meets the create contract |
| Redis.CreateStore | src/per_object_permissions/backends/redis_backend.py:41-42 | the set-adds of a create touch only the keys of the input triples |
| Redis.CreateStoreAbs | src/per_object_permissions/backends/redis_backend.py:40-43 | after the set-adds, the stored triples are the old ones plus the input |
| Redis.CreateStoreStores | src/per_object_permissions/backends/redis_backend.py:40-43 | set-adds never remove a member, and each input predicate ends up under its key |
| Redis.CreateStorePresent | src/per_object_permissions/backends/redis_backend.py:42 | set-adds of predicates that are all present already leave the store unchanged |
| Redis.CreateIdempotent | tests/test_backends/test_in_redis_backend.py:106-112 | a second identical create leaves the raw key/value store exactly as the first left it |
| Redis.CreateKeepsWellFormed | src/per_object_permissions/backends/redis_backend.py:42 | with colon-free identifiers, create keeps every namespace key parseable |
| Redis.ColonIdBreaksScan | src/per_object_permissions/backends/redis_backend.py:42 | creating a triple with a colon in an identifier leaves a key that later scans cannot parse |
| Redis.PresentPredicates | src/per_object_permissions/backends/redis_backend.py:82-88 | with a predicate filter, the key yields the requested predicates that are members of its set, and only those |
| Redis.Attach | src/per_object_permissions/backends/redis_backend.py:89-94 | with no predicate filter, the key yields its pair with every listed member |
| Redis.ReadKey | src/per_object_permissions/backends/redis_backend.py:70-94 | one key contributes exactly the stored triples under that key that match the filter |
| Redis.Read | src/per_object_permissions/backends/redis_backend.py:48-95 | for any scan order that covers the namespace keys, read succeeds iff every namespace key parses; when it succeeds it meets the read contract |
| Redis.RemovePredicates | src/per_object_permissions/backends/redis_backend.py:131-137 | removing the listed predicates takes exactly them out of the key's set, reports those that were there, and changes no other key |
| Redis.DeleteKey | src/per_object_permissions/backends/redis_backend.py:119-144 | one key loses exactly its stored triples that match, reports exactly those, and no other key changes |
| Redis.Delete | src/per_object_permissions/backends/redis_backend.py:97-146 | delete succeeds iff every namespace key parses; on success it meets the delete contract; keys outside the namespace are untouched |
| Postgres.WhereClauseParts | src/per_object_permissions/backends/postgres/backend.py:21-29 | at most three parts; a column has a part iff its component is non-empty; the part binds that component; parts follow the column order |
| Postgres.Unzip | src/per_object_permissions/backends/postgres/backend.py:41 | the condition and value lists have the parts' length and re-pair into the parts position by position |
| Postgres.BuildWhereClause | src/per_object_permissions/backends/postgres/backend.py:32-41 | conditions and values are as long as the parts, and the i-th pair is the i-th part |
| Postgres.Satisfies | src/per_object_permissions/backends/postgres/backend.py:99-104 | a clause without conditions holds for every row (its full meaning is `Postgres.WhereClauseIsMatches`) |
| Postgres.WhereClauseEmptyIffUnfiltered | src/per_object_permissions/backends/postgres/backend.py:37-39 | the clause has at most three conditions, and has none iff the filter has no components |
| Postgres.WhereClauseBindsComponents | src/per_object_permissions/backends/postgres/backend.py:21-29 | a column is conditioned iff its component is non-empty, and each condition's value is that component |
| Postgres.WhereClauseOrdered | src/per_object_permissions/backends/postgres/backend.py:21-29 | conditions appear in subject, predicate, object order |
| Postgres.SelectRows | src/per_object_permissions/backends/postgres/backend.py:99-104 | selecting with a clause keeps exactly the rows that satisfy it |
| Postgres.RemainingRows | src/per_object_permissions/backends/postgres/backend.py:117-129 | the rows a delete leaves are exactly those that do not satisfy the clause |
| Postgres.WhereClauseIsMatches | src/per_object_permissions/backends/postgres/backend.py:95-104 | a row satisfies the AND of the `= ANY` conditions iff it matches the filter |
| Postgres.JoinAnd | src/per_object_permissions/backends/postgres/backend.py:100 | the joined text is exactly as long as all the conditions together plus five characters for each ` AND ` between neighbouring conditions |
| Postgres.JoinAndEnds | src/per_object_permissions/backends/postgres/backend.py:100 | the joined text starts with the first condition and ends with the last |
| Postgres.JoinAndSplit | src/per_object_permissions/backends/postgres/backend.py:100 | at every inner boundary the joined text is the join of the conditions before it, then ` AND `, then the join of those after it: the separator is exactly ` AND ` between each neighbouring pair |
| Postgres.ReadStatement | src/per_object_permissions/backends/postgres/backend.py:95-109 | the text starts with the SELECT clause and ends with `;`, and the bound parameters are the WHERE clause's values |
| Postgres.DeleteStatement | src/per_object_permissions/backends/postgres/backend.py:118-134 | the text starts with the DELETE clause and ends with ` RETURNING …;`, and the bound parameters are the WHERE clause's values |
| Postgres.NoWhereIffUnfiltered | src/per_object_permissions/backends/postgres/backend.py:99-109 | the select and delete statements omit WHERE and bind nothing iff the filter has no components |
| Postgres.FilteredStatementText | src/per_object_permissions/backends/postgres/backend.py:99-127 | with a non-empty filter, the SELECT text is the select clause, ` WHERE `, the ` AND `-joined conditions and `;`, and the DELETE text is the delete clause, ` WHERE `, the joined conditions and ` RETURNING …;` |
| Postgres.FilteredStatementsOpenWithWhere | src/per_object_permissions/backends/postgres/backend.py:99-127 | with a non-empty filter, both statements open with their clause followed by ` WHERE ` |
| Postgres.StatementBindsValues | src/per_object_permissions/backends/postgres/backend.py:99-128 | the SELECT and the DELETE each bind one parameter per condition, and parameter i is the component of condition i's column |
| Postgres.DeleteSplitsTable | src/per_object_permissions/backends/postgres/backend.py:117-129 | the rows returned by the delete plus the rows left are the old table, as a multiset |
| Postgres.Init | src/per_object_permissions/backends/postgres/backend.py:50-56 | a new backend has not provisioned its table and sees the existing rows |
| Postgres.EnsureTable | src/per_object_permissions/backends/postgres/backend.py:68-74 | after provisioning, the flag is set and no row changes |
| Postgres.Create | src/per_object_permissions/backends/postgres/backend.py:76-86 | create provisions the table, meets the create contract, reports the set of its inputs, and (as a plain insert) appends exactly the input rows, duplicates included |
| Postgres.Read | src/per_object_permissions/backends/postgres/backend.py:88-109 | read provisions the table, changes no row, and meets the read contract |
| Postgres.Delete | src/per_object_permissions/backends/postgres/backend.py:111-134 | delete returns what read returns, meets the delete contract, and empties the table when unfiltered |
| Postgres.DeleteReturnsRemoved | src/per_object_permissions/backends/postgres/backend.py:117-129 | the returned rows are exactly the rows the delete took out of the table |
| Postgres.TableFlagMonotone | src/per_object_permissions/backends/postgres/backend.py:56-74 | after any sequence of calls, the table flag is set iff it was set before or at least one call was made; it is never reset |
| Mongo.QueryKeyValues | src/per_object_permissions/backends/mongodb_backend.py:20-31 | at most three pairs with distinct fields; a field has a pair iff its component is non-empty; each pair's `$in` holds that component |
| Mongo.ToDict | src/per_object_permissions/backends/mongodb_backend.py:70 | every pair's key is in the dict, and every dict entry is one of the pairs |
| Mongo.BuildQuery | src/per_object_permissions/backends/mongodb_backend.py:70 | the query document has a key exactly for each non-empty component, mapped to `$in` of that component |
| Mongo.ToDictKeepsDistinctPairs | src/per_object_permissions/backends/mongodb_backend.py:70 | turning pairs with distinct keys into a dict loses no pair and adds none |
| Mongo.BuildQueryShape | src/per_object_permissions/backends/mongodb_backend.py:70 | the query document has one entry per key/value pair the filter contributes, so no pair is lost to a duplicate key |
| Mongo.EmptyQueryIffUnfiltered | src/per_object_permissions/backends/mongodb_backend.py:20-31 | the query document is empty iff the filter has no components |
| Mongo.MatchesQuery | src/per_object_permissions/backends/mongodb_backend.py:72 | the empty query document matches every document (its full meaning is `Mongo.QueryIsMatches`) |
| Mongo.QueryIsMatches | src/per_object_permissions/backends/mongodb_backend.py:70-72 | a document matches the query iff its triple matches the filter |
| Mongo.Fields | src/per_object_permissions/backends/mongodb_backend.py:73-74 | dropping `_id` turns each document into its triple, position by position |
| Mongo.Find | src/per_object_permissions/backends/mongodb_backend.py:72 | find returns exactly the documents that match the query |
| Mongo.FindCounts | src/per_object_permissions/backends/mongodb_backend.py:72-74 | `find` yields each matching triple once per document that stores it, and no other triple |
| Mongo.Reject | src/per_object_permissions/backends/mongodb_backend.py:90 | the documents kept are exactly the non-matching ones, and ids stay unique |
| Mongo.DeleteIds | src/per_object_permissions/backends/mongodb_backend.py:90 | deleting by ids keeps exactly the documents whose id is not listed |
| Mongo.DeleteIdsIsReject | src/per_object_permissions/backends/mongodb_backend.py:86-90 | when the ids are exactly those of the matching documents, deleting by ids keeps the same documents as deleting by query |
| Mongo.FoundIdsPickMatches | src/per_object_permissions/backends/mongodb_backend.py:86-88 | with unique ids, a document's id is among the found ids iff the document matches |
| Mongo.FindRejectSplit | src/per_object_permissions/backends/mongodb_backend.py:86-90 | the found triples plus the kept triples are the collection's triples, as a multiset |
| Mongo.StoredSplit | src/per_object_permissions/backends/mongodb_backend.py:62-91 | the found documents meet the read contract, and found and kept together meet the delete contract |
| Mongo.Init | src/per_object_permissions/backends/mongodb_backend.py:37-41 | a new backend has not created its indexes and sees the existing collection |
| Mongo.EnsureIndexes | src/per_object_permissions/backends/mongodb_backend.py:43-48 | after index creation the flag is set and no document changes |
| Mongo.NewDocs | src/per_object_permissions/backends/mongodb_backend.py:55-59 | one new document per input triple, in order, with fresh consecutive ids |
| Mongo.Create | src/per_object_permissions/backends/mongodb_backend.py:50-60 | create always creates the indexes and keeps ids unique; it fails iff the input is empty, leaving the documents unchanged; otherwise it returns its input, adds exactly the input as a multiset, and meets the create contract |
| Mongo.Read | src/per_object_permissions/backends/mongodb_backend.py:62-75 | read creates the indexes, changes no document, meets the read contract, and returns each matching triple once per stored copy |
| Mongo.Delete | src/per_object_permissions/backends/mongodb_backend.py:77-91 | delete returns what read returns, keeps exactly the non-matching documents, splits the collection as a multiset, and meets the delete contract |
| Mongo.CreateTwiceStoresTwice | src/per_object_permissions/backends/mongodb_backend.py:55-59 | creating one triple twice leaves two copies of it in the collection |
| Mongo.Step | src/per_object_permissions/backends/mongodb_backend.py:43-91 | every operation keeps document ids unique |
| Mongo.IndexFlagMonotone | src/per_object_permissions/backends/mongodb_backend.py:41-48 | after any sequence of calls the index flag is set iff it was set before or a call was made; it is never reset |
| LegacyInMemory.Init | src/backends/in_memory_backend.py:10-11 | a new legacy backend holds exactly the given tuples |
| LegacyInMemory.Create | src/backends/in_memory_backend.py:16-20 | create adds exactly the one given tuple |
| LegacyInMemory.Pred | src/backends/in_memory_backend.py:27-37 | the filter closure inside `read` accepts a tuple iff its triple matches the filter |
| LegacyInMemory.Read | src/backends/in_memory_backend.py:22-39 | read returns exactly the stored tuples that match the filter |
| LegacyInMemory.Delete | src/backends/in_memory_backend.py:41-45 | delete leaves the store unchanged, so every later read returns what it returned before |
| LegacyInMemory.ReadUnfilteredIsStore | src/backends/in_memory_backend.py:22-39 | a read with no filter returns every stored tuple |
| LegacyInMemory.ReadAgreesWithInMemory | src/backends/in_memory_backend.py:22-39 | the legacy read returns the same triples as the new in-memory backend's read over the same data |
| LegacyInMemory.CreateThenRead | src/backends/in_memory_backend.py:16-39 | after creating a tuple, reading by its own three fields finds it |
| LegacyInMemory.DeleteMissesContract | src/backends/in_memory_backend.py:41-45 | whenever something matches, the legacy delete fails the delete contract whatever it reports |

## Left out

- Connection plumbing is not modelled: Redis and Mongo client factories, the Postgres connection with its five one-second retries, and the Neo4j session. These are I/O. The model has no failure of the store itself.
- Asynchrony and concurrency are not modelled. Every operation is one atomic step over an immutable value, so the model says nothing about reads and deletes that overlap.
- The Postgres SQL files that `_load_query` reads (table creation and insert) are not part of this model. Create is modelled as a plain insert of every input row, with no conflict handling.
- The Neo4j backend is not part of this model.
- The HTTP API, configuration loading, the benchmark harness and the test-duration comparison script are not part of this model.
- Python truthiness of a generic iterable: an empty component given as an empty generator is truthy in the source. The model treats every empty component as absent, which matches the list arguments callers pass.
- Redis.Read: SCAN order is a parameter. It may be any sequence whose elements are exactly the namespace keys, repeats allowed. The keys are assumed to stay fixed during the scan.
- Redis.Create: the create contract is proved only for colon-free identifiers. With a colon the store becomes unreadable, which `Redis.ColonIdBreaksScan` states.
- Mongo.NewDocs: the driver's ObjectId generation is modelled as a counter. Only the fresh, unique ids matter.
- Mongo.Create and Mongo.Delete require unique document ids. Every operation keeps them unique (`Mongo.Step`).
- Result ordering is not modelled: results are stated as sets, or as multisets where copies matter.
- Redis.Read: the result is stated as a set. The source appends a triple once per occurrence of its predicate in the predicate filter, and once more for each repeat of its key in the scan; that multiplicity is not stated.
- Redis.Delete: the result is stated as a set. Each removed triple is reported by the SREM that removed it, so a repeated predicate or key does not report it twice, but this is not stated.

=== FILE: base.dfy ===
/** Small failure-carrying datatypes and a sequence-to-set helper shared by
    every adapter model. */
module Base {

  /** A value that may be absent. */
  datatype Option<+T> = None | Some(value: T)

  /** The outcome of an operation that can raise. */
  datatype Result<+T, +E> = Success(value: T) | Failure(error: E)

  /** The elements of a sequence, forgetting order and multiplicity. */
  function Elems<T>(s: seq<T>): set<T>
  {
    set x | x in s
  }

  /** Iterating a set (as Python iterates the members Redis returns): every
      element once, in some order. */
  method Enumerate<T>(s: set<T>) returns (xs: seq<T>)
    ensures Elems(xs) == s
    ensures |xs| == |s|
  {
    xs := [];
    var rest := s;
    while rest != {}
      invariant Elems(xs) + rest == s
      invariant Elems(xs) !! rest
      invariant |xs| + |rest| == |s|
      invariant forall i, j :: 0 <= i < j < |xs| ==> xs[i] != xs[j]
      decreases |rest|
    {
      var x :| x in rest;
      xs := xs + [x];
      rest := rest - {x};
    }
  }
}

=== FILE: in_memory.dfy ===
/** The reference backend: a plain set of triples held by the instance. */
module InMemory {
  import opened Base
  import opened Triples
  import Protocol

  datatype Backend = Backend(data: set<Triple>)

  /** What a call that mutates the store hands back: the new state and the
      triples it reports. */
  datatype Outcome = Outcome(backend: Backend, reported: seq<Triple>)

  datatype Removal = Removal(backend: Backend, deleted: set<Triple>)

  /** The predicate built by `_filter_pred`: reject on the first non-empty
      component that does not contain the triple's field, else accept. It
      accepts exactly the triples the filter matches. */
  function FilterPred(f: Filter, t: Triple): (r: bool)
    ensures r <==> Matches(f, t)
  {
    if |f.subjects| > 0 && t.subject !in f.subjects then false
    else if |f.predicates| > 0 && t.pred !in f.predicates then false
    else if |f.objects| > 0 && t.obj !in f.objects then false
    else true
  }

  /** `InMemoryBackend(initial_data)`: the store starts as the given triples,
      which is the state of creating them on an empty store. */
  function Init(initial: seq<Triple>): (b: Backend)
    ensures b == Create(Backend({}), initial).backend
    ensures forall t :: t in b.data <==> t in initial
  {
    Backend(Elems(initial))
  }

  /** `create(perms)`: union the triples into the store and return them in
      input order. */
  function Create(b: Backend, perms: seq<Triple>): (r: Outcome)
    ensures Protocol.CreateMeets(b.data, perms, r.backend.data, Elems(r.reported))
    ensures r.reported == perms
  {
    Outcome(Backend(b.data + Elems(perms)), perms)
  }

  /** `read(filter)`: the stored triples passing `_filter_pred`. */
  function Read(b: Backend, f: Filter): (r: set<Triple>)
    ensures Protocol.ReadMeets(b.data, f, r)
  {
    set t | t in b.data && FilterPred(f, t)
  }

  /** `delete(filter)`: the triples `read` would return are removed from the
      store and returned. */
  function Delete(b: Backend, f: Filter): (r: Removal)
    ensures r.deleted == Read(b, f)
    ensures Protocol.DeleteMeets(b.data, f, r.backend.data, r.deleted)
  {
    var doomed := set t | t in b.data && FilterPred(f, t);
    Removal(Backend(b.data - doomed), doomed)
  }

  /** Creating the same triples twice leaves the store of creating them once. */
  lemma CreateTwiceIsCreateOnce(b: Backend, perms: seq<Triple>)
    ensures Create(Create(b, perms).backend, perms).backend == Create(b, perms).backend
  {
  }

  /** A read without arguments returns the whole store. */
  lemma ReadUnfilteredIsStore(b: Backend)
    ensures Read(b, Unfiltered) == b.data
  {
  }

  /** After a delete, reading with the same filter yields nothing. */
  lemma DeleteThenReadIsEmpty(b: Backend, f: Filter)
    ensures Read(Delete(b, f).backend, f) == {}
  {
  }

  /** A store of (s1, read, o1), (s1, write, o1) and (s2, read, o1): reads by
      subject and by predicate, the delete of (s1, write), and the read after
      it. */
  lemma Scenario()
    ensures
      var a := Triple("s1", "read", "o1");
      var b := Triple("s1", "write", "o1");
      var c := Triple("s2", "read", "o1");
      var store := Create(Backend({}), [a, b, c]).backend;
      && Read(store, Filter(["s1"], [], [])) == {a, b}
      && Read(store, Filter([], ["read"], [])) == {a, c}
      && Delete(store, Filter(["s1"], ["write"], [])).deleted == {b}
      && Read(Delete(store, Filter(["s1"], ["write"], [])).backend, Unfiltered) == {a, c}
  {
  }
}

=== FILE: legacy_in_memory.dfy ===
/** The older in-memory backend: plain 3-tuples in a set, single-triple
    `create`, filtering `read`, and a `delete` that does nothing. */
module LegacyInMemory {
  import opened Base
  import opened Triples
  import Protocol
  import InMemory

  type Tuple = (Id, Predicate, Id)

  datatype Backend = Backend(data: set<Tuple>)

  function ToTriple(x: Tuple): Triple
  {
    Triple(x.0, x.1, x.2)
  }

  /** `InMemoryBackend(initial_data)`. */
  function Init(initial: seq<Tuple>): (b: Backend)
    ensures forall x :: x in b.data <==> x in initial
  {
    Backend(Elems(initial))
  }

  /** `create(s, p, o)`: add the one tuple; the call returns nothing. */
  function Create(b: Backend, subject: Id, pred: Predicate, obj: Id): (b': Backend)
    ensures (subject, pred, obj) in b'.data
    ensures forall x :: x in b'.data <==> x in b.data || x == (subject, pred, obj)
  {
    Backend(b.data + {(subject, pred, obj)})
  }

  /** The filter predicate defined inside `read`. */
  function Pred(f: Filter, x: Tuple): (r: bool)
    ensures r <==> Matches(f, ToTriple(x))
  {
    if |f.subjects| > 0 && x.0 !in f.subjects then false
    else if |f.predicates| > 0 && x.1 !in f.predicates then false
    else if |f.objects| > 0 && x.2 !in f.objects then false
    else true
  }

  /** `read(filter)`: keep a tuple iff every non-empty component holds the
      corresponding field. */
  function Read(b: Backend, f: Filter): (r: set<Tuple>)
    ensures forall x :: x in r <==> x in b.data && Matches(f, ToTriple(x))
  {
    set x | x in b.data && Pred(f, x)
  }

  /** `delete(filter)`: a stub that leaves the store as it is. */
  function Delete(b: Backend, f: Filter): (b': Backend)
    ensures b'.data == b.data
    ensures Read(b', f) == Read(b, f)
    ensures forall g :: Read(b', g) == Read(b, g)
  {
    b
  }

  /** A read without arguments returns every stored tuple. */
  lemma ReadUnfilteredIsStore(b: Backend)
    ensures Read(b, Unfiltered) == b.data
  {
  }

  /** Reading the legacy store selects what the current in-memory backend
      selects from the same triples. */
  lemma ReadAgreesWithInMemory(b: Backend, f: Filter)
    ensures (set x | x in Read(b, f) :: ToTriple(x)) == InMemory.Read(InMemory.Backend(Stored(b)), f)
  {
  }

  /** Creating a tuple makes it readable under every filter it matches. */
  lemma CreateThenRead(b: Backend, subject: Id, pred: Predicate, obj: Id, f: Filter)
    requires Matches(f, Triple(subject, pred, obj))
    ensures (subject, pred, obj) in Read(Create(b, subject, pred, obj), f)
  {
  }

  /** The triples a legacy store holds. */
  function Stored(b: Backend): set<Triple>
  {
    set x | x in b.data :: ToTriple(x)
  }

  /** Whenever something matches, the stub `delete` falls short of the
      backend contract, whatever it were taken to report. */
  lemma DeleteMissesContract(b: Backend, f: Filter, deleted: set<Triple>)
    requires Read(b, f) != {}
    ensures !Protocol.DeleteMeets(Stored(b), f, Stored(Delete(b, f)), deleted)
  {
  }
}

=== FILE: mongo.dfy ===
/** The MongoDB backend: one document per created triple, found through a
    query document built from the filter. */
module Mongo {
  import opened Base
  import opened Triples
  import Protocol

  /** `{"$in": values}`: the field's value is one of `values`. */
  datatype InClause = In(values: seq<string>)

  /** `query_key_values`: a `(field, {"$in": component})` pair for each
      non-empty component, in the order subject, predicate, object. */
  function QueryKeyValues(f: Filter): (pairs: seq<(Field, InClause)>)
    ensures |pairs| <= 3
    ensures forall i, j :: 0 <= i < j < |pairs| ==> pairs[i].0 != pairs[j].0
    ensures forall fld :: (fld, In(Component(f, fld))) in pairs <==> |Component(f, fld)| > 0
    ensures forall p :: p in pairs ==> p.1 == In(Component(f, p.0))
  {
    (if |f.subjects| > 0 then [(SubjectField, In(f.subjects))] else [])
    + (if |f.predicates| > 0 then [(PredicateField, In(f.predicates))] else [])
    + (if |f.objects| > 0 then [(ObjectField, In(f.objects))] else [])
  }

  /** Python's `dict(pairs)`: later pairs overwrite earlier ones. */
  function ToDict<K, V>(pairs: seq<(K, V)>): (d: map<K, V>)
    ensures forall p :: p in pairs ==> p.0 in d
    ensures forall k :: k in d ==> (k, d[k]) in pairs
  {
    if |pairs| == 0 then map[]
    else ToDict(pairs[..|pairs| - 1])[pairs[|pairs| - 1].0 := pairs[|pairs| - 1].1]
  }

  /** With distinct keys, building the dict loses no pair. */
  lemma {:induction false} ToDictKeepsDistinctPairs<K, V>(pairs: seq<(K, V)>)
    requires forall i, j :: 0 <= i < j < |pairs| ==> pairs[i].0 != pairs[j].0
    ensures |ToDict(pairs)| == |pairs|
    ensures forall p :: p in pairs ==> p.0 in ToDict(pairs) && ToDict(pairs)[p.0] == p.1
  {
    if |pairs| > 0 {
      var init := pairs[..|pairs| - 1];
      var last := pairs[|pairs| - 1];
      var d := ToDict(init);
      ToDictKeepsDistinctPairs(init);
      assert ToDict(pairs) == d[last.0 := last.1];
      assert forall p :: p in init ==> p.0 != last.0 by {
        forall p | p in init ensures p.0 != last.0 {
          var i :| 0 <= i < |init| && init[i] == p;
          assert pairs[i] == p;
        }
      }
      assert last.0 !in d;
      forall p | p in pairs ensures p.0 in ToDict(pairs) && ToDict(pairs)[p.0] == p.1 {
        var i :| 0 <= i < |pairs| && pairs[i] == p;
        if i < |pairs| - 1 {
          assert p in init;
        }
      }
    }
  }

  /** The query document `read` and `delete` send. */
  function BuildQuery(f: Filter): (q: map<Field, InClause>)
    ensures forall fld :: fld in q <==> |Component(f, fld)| > 0
    ensures forall fld :: fld in q ==> q[fld] == In(Component(f, fld))
  {
    ToDict(QueryKeyValues(f))
  }

  /** The query document holds one entry per key/value pair: no pair is lost
      to a duplicate key. */
  lemma BuildQueryShape(f: Filter)
    ensures |BuildQuery(f)| == |QueryKeyValues(f)|
  {
    ToDictKeepsDistinctPairs(QueryKeyValues(f));
  }

  /** An empty filter builds the empty query document `{}`. */
  lemma EmptyQueryIffUnfiltered(f: Filter)
    ensures BuildQuery(f) == map[] <==> IsUnfiltered(f)
  {
    BuildQueryShape(f);
    if !IsUnfiltered(f) {
      if |f.subjects| > 0 {
        assert SubjectField in BuildQuery(f);
      } else if |f.predicates| > 0 {
        assert PredicateField in BuildQuery(f);
      } else {
        assert ObjectField in BuildQuery(f);
      }
    }
  }

  /** One stored document: its generated `_id` and its three fields. */
  datatype Doc = Doc(id: nat, fields: Triple)

  /** MongoDB's reading of a query document of `$in` clauses: every listed
      field holds one of its values; unlisted fields are unconstrained. */
  predicate MatchesQuery(d: Doc, q: map<Field, InClause>)
    ensures |q| == 0 ==> MatchesQuery(d, q)
  {
    forall fld :: fld in q ==> Value(d.fields, fld) in q[fld].values
  }

  /** A document matches the query document iff its triple matches the
      filter. */
  lemma QueryIsMatches(f: Filter, d: Doc)
    ensures MatchesQuery(d, BuildQuery(f)) <==> Matches(f, d.fields)
  {
    BuildQueryShape(f);
    MatchesByField(f, d.fields);
    var q := BuildQuery(f);
    if MatchesQuery(d, q) {
      forall fld | |Component(f, fld)| > 0 ensures Value(d.fields, fld) in Component(f, fld) {
        assert fld in q;
      }
    }
  }

  // ---------------------------------------------------------------- collection

  /** The `perms` collection in natural order, and the next `_id` the driver
      will generate. */
  datatype Collection = Collection(docs: seq<Doc>, nextId: nat)

  /** `_id` is unique and every issued id is below the next one. */
  predicate Valid(c: Collection)
  {
    && (forall i, j :: 0 <= i < j < |c.docs| ==> c.docs[i].id != c.docs[j].id)
    && (forall d :: d in c.docs ==> d.id < c.nextId)
  }

  /** The triples of a sequence of documents, `_id` stripped, in order. */
  function Fields(docs: seq<Doc>): (ts: seq<Triple>)
    ensures |ts| == |docs|
    ensures forall i :: 0 <= i < |docs| ==> ts[i] == docs[i].fields
  {
    seq(|docs|, i requires 0 <= i < |docs| => docs[i].fields)
  }

  /** The set of triples a sequence of documents stores. */
  function Stored(docs: seq<Doc>): set<Triple>
  {
    set d | d in docs :: d.fields
  }

  lemma FieldsElems(docs: seq<Doc>)
    ensures Elems(Fields(docs)) == Stored(docs)
  {
  }

  lemma FieldsAppend(a: seq<Doc>, b: seq<Doc>)
    ensures Fields(a + b) == Fields(a) + Fields(b)
  {
  }

  function Ids(docs: seq<Doc>): set<nat>
  {
    set d | d in docs :: d.id
  }

  /** `find(query)`: the matching documents, in natural order. */
  function Find(docs: seq<Doc>, q: map<Field, InClause>): (r: seq<Doc>)
    ensures forall d :: d in r <==> d in docs && MatchesQuery(d, q)
  {
    if |docs| == 0 then []
    else
      assert forall d :: d in docs <==> d == docs[0] || d in docs[1..] by {
        assert docs == [docs[0]] + docs[1..];
      }
      (if MatchesQuery(docs[0], q) then [docs[0]] else []) + Find(docs[1..], q)
  }

  /** The documents a query leaves out, in natural order, keeping ids
      unique. */
  function Reject(docs: seq<Doc>, q: map<Field, InClause>): (r: seq<Doc>)
    ensures forall d :: d in r <==> d in docs && !MatchesQuery(d, q)
    ensures (forall i, j :: 0 <= i < j < |docs| ==> docs[i].id != docs[j].id) ==>
              forall i, j :: 0 <= i < j < |r| ==> r[i].id != r[j].id
  {
    if |docs| == 0 then []
    else
      assert forall d :: d in docs <==> d == docs[0] || d in docs[1..] by {
        assert docs == [docs[0]] + docs[1..];
      }
      var rest := Reject(docs[1..], q);
      if MatchesQuery(docs[0], q) then rest
      else
        assert (forall i, j :: 0 <= i < j < |docs| ==> docs[i].id != docs[j].id) ==>
                 forall d :: d in rest ==> d.id != docs[0].id by {
          if forall i, j :: 0 <= i < j < |docs| ==> docs[i].id != docs[j].id {
            forall d | d in rest ensures d.id != docs[0].id {
              var k :| 0 <= k < |docs[1..]| && docs[1..][k] == d;
              assert docs[k + 1] == d;
            }
          }
        }
        [docs[0]] + rest
  }

  /** `delete_many({"_id": {"$in": ids}})`: drop the documents whose id is
      listed. */
  function DeleteIds(docs: seq<Doc>, ids: set<nat>): (r: seq<Doc>)
    ensures forall d :: d in r <==> d in docs && d.id !in ids
  {
    if |docs| == 0 then []
    else
      assert forall d :: d in docs <==> d == docs[0] || d in docs[1..] by {
        assert docs == [docs[0]] + docs[1..];
      }
      (if docs[0].id in ids then [] else [docs[0]]) + DeleteIds(docs[1..], ids)
  }

  /** Deleting by ids removes exactly the documents of a query when the ids
      pick out exactly those documents. */
  lemma {:induction false} DeleteIdsIsReject(docs: seq<Doc>, ids: set<nat>, q: map<Field, InClause>)
    requires forall d :: d in docs ==> (d.id in ids <==> MatchesQuery(d, q))
    ensures DeleteIds(docs, ids) == Reject(docs, q)
  {
    if |docs| > 0 {
      assert docs[0] in docs;
      assert forall d :: d in docs[1..] ==> d in docs;
      DeleteIdsIsReject(docs[1..], ids, q);
    }
  }

  /** With unique ids, a document's id is among the found ids exactly when
      the document itself matches. */
  lemma FoundIdsPickMatches(c: Collection, q: map<Field, InClause>)
    requires Valid(c)
    ensures forall d :: d in c.docs ==> (d.id in Ids(Find(c.docs, q)) <==> MatchesQuery(d, q))
  {
  }

  /** Splitting a collection by a query keeps every document's triple,
      copy for copy. */
  lemma {:induction false} FindRejectSplit(docs: seq<Doc>, q: map<Field, InClause>)
    ensures multiset(Fields(docs)) == multiset(Fields(Find(docs, q))) + multiset(Fields(Reject(docs, q)))
  {
    if |docs| > 0 {
      var head := [docs[0]];
      var tail := docs[1..];
      FindRejectSplit(tail, q);
      assert docs == head + tail;
      FieldsAppend(head, tail);
      if MatchesQuery(docs[0], q) {
        FieldsAppend(head, Find(tail, q));
        assert Reject(docs, q) == Reject(tail, q);
      } else {
        FieldsAppend(head, Reject(tail, q));
        assert Find(docs, q) == Find(tail, q);
      }
    }
  }

  /** The abstract view of a split: the found triples are the matching ones
      and the kept triples are the others. */
  lemma StoredSplit(docs: seq<Doc>, f: Filter)
    ensures Protocol.DeleteMeets(Stored(docs), f, Stored(Reject(docs, BuildQuery(f))), Stored(Find(docs, BuildQuery(f))))
    ensures Protocol.ReadMeets(Stored(docs), f, Stored(Find(docs, BuildQuery(f))))
  {
    var q := BuildQuery(f);
    forall d ensures MatchesQuery(d, q) <==> Matches(f, d.fields) {
      QueryIsMatches(f, d);
    }
    forall t | t in Stored(docs) && Matches(f, t) ensures t in Stored(Find(docs, q)) {
      var d :| d in docs && d.fields == t;
    }
    forall t | t in Stored(docs) && !Matches(f, t) ensures t in Stored(Reject(docs, q)) {
      var d :| d in docs && d.fields == t;
    }
  }

  // ---------------------------------------------------------------- backend

  /** `_indexes_created` and the collection. */
  datatype Backend = Backend(indexesCreated: bool, perms: Collection)

  datatype Outcome = Outcome(backend: Backend, result: seq<Triple>)

  /** A fresh adapter over whatever the collection already holds. */
  function Init(existing: Collection): (b: Backend)
    ensures !b.indexesCreated
    ensures b.perms == existing
  {
    Backend(false, existing)
  }

  /** `_ensure_indexes`: create the indexes once, then remember it; an index
      changes no document. */
  function EnsureIndexes(b: Backend): (b': Backend)
    ensures b'.indexesCreated
    ensures b'.perms == b.perms
  {
    if !b.indexesCreated then Backend(true, b.perms) else b
  }

  /** The documents `insert_many` stores for `perms`, with fresh ids. */
  function NewDocs(perms: seq<Triple>, firstId: nat): (docs: seq<Doc>)
    ensures |docs| == |perms|
    ensures forall i :: 0 <= i < |perms| ==> docs[i] == Doc(firstId + i, perms[i])
  {
    seq(|perms|, i requires 0 <= i < |perms| => Doc(firstId + i, perms[i]))
  }

  /** The driver's `InvalidOperation("No operations to execute")`: the bulk
      write behind `insert_many` refuses an empty batch. The generator the
      backend passes is truthy even when empty, so the driver's own
      non-empty check lets it through. */
  datatype MongoError = NoOperations

  datatype Created = Created(backend: Backend, result: Result<seq<Triple>, MongoError>)

  /** `create(perms)`: ensure the indexes, then insert one document per input
      triple, without de-duplication, and return the input triples in order.
      An empty input raises from `insert_many`, after the indexes exist. */
  function Create(b: Backend, perms: seq<Triple>): (r: Created)
    requires Valid(b.perms)
    ensures r.backend.indexesCreated
    ensures Valid(r.backend.perms)
    ensures r.result.Failure? <==> |perms| == 0
    ensures r.result.Failure? ==> r.backend == EnsureIndexes(b)
    ensures r.result.Success? ==> r.result.value == perms
    ensures multiset(Fields(r.backend.perms.docs)) == multiset(Fields(b.perms.docs)) + multiset(perms)
    ensures r.result.Success? ==>
              Protocol.CreateMeets(Stored(b.perms.docs), perms, Stored(r.backend.perms.docs), Elems(r.result.value))
  {
    var b1 := EnsureIndexes(b);
    var c := b1.perms;
    if |perms| == 0 then Created(b1, Failure(NoOperations))
    else
      var added := NewDocs(perms, c.nextId);
      var docs := c.docs + added;
      FieldsAppend(c.docs, added);
      assert Fields(added) == perms;
      FieldsElems(docs);
      FieldsElems(c.docs);
      assert Valid(Collection(docs, c.nextId + |perms|)) by {
        forall i, j | 0 <= i < j < |docs| ensures docs[i].id != docs[j].id {
          if j >= |c.docs| && i < |c.docs| {
            assert docs[i] in c.docs;
          }
        }
      }
      Created(Backend(true, Collection(docs, c.nextId + |perms|)), Success(perms))
  }

  /** `find` yields each matching triple once per document that stores it,
      and no other triple. */
  lemma {:induction false} FindCounts(docs: seq<Doc>, f: Filter, t: Triple)
    ensures multiset(Fields(Find(docs, BuildQuery(f))))[t] ==
              if Matches(f, t) then multiset(Fields(docs))[t] else 0
  {
    if |docs| > 0 {
      var q := BuildQuery(f);
      var head := [docs[0]];
      var tail := docs[1..];
      assert docs == head + tail;
      FindCounts(tail, f, t);
      FieldsAppend(head, tail);
      QueryIsMatches(f, docs[0]);
      if MatchesQuery(docs[0], q) {
        FieldsAppend(head, Find(tail, q));
      } else {
        assert Find(docs, q) == Find(tail, q);
      }
    }
  }

  /** `read(filter)`: the triple of each document `find` yields. */
  function Read(b: Backend, f: Filter): (r: Outcome)
    ensures r.backend == EnsureIndexes(b)
    ensures Protocol.ReadMeets(Stored(b.perms.docs), f, Elems(r.result))
    ensures forall t :: multiset(r.result)[t] == if Matches(f, t) then multiset(Fields(b.perms.docs))[t] else 0
  {
    var b1 := EnsureIndexes(b);
    var found := Find(b1.perms.docs, BuildQuery(f));
    StoredSplit(b1.perms.docs, f);
    FieldsElems(found);
    assert forall t :: multiset(Fields(found))[t] == if Matches(f, t) then multiset(Fields(b1.perms.docs))[t] else 0 by {
      forall t ensures multiset(Fields(found))[t] == if Matches(f, t) then multiset(Fields(b1.perms.docs))[t] else 0 {
        FindCounts(b1.perms.docs, f, t);
      }
    }
    Outcome(b1, Fields(found))
  }

  /** `delete(filter)`: find the matching documents, then delete by their
      ids. The result is what `find` yielded, and exactly those documents
      leave the collection. */
  function Delete(b: Backend, f: Filter): (r: Outcome)
    requires Valid(b.perms)
    ensures r.backend.indexesCreated
    ensures Valid(r.backend.perms)
    ensures r.result == Read(b, f).result
    ensures r.backend.perms.docs == Reject(b.perms.docs, BuildQuery(f))
    ensures multiset(Fields(b.perms.docs)) == multiset(Fields(r.backend.perms.docs)) + multiset(r.result)
    ensures Protocol.DeleteMeets(Stored(b.perms.docs), f, Stored(r.backend.perms.docs), Elems(r.result))
  {
    var b1 := EnsureIndexes(b);
    var c := b1.perms;
    var q := BuildQuery(f);
    var found := Find(c.docs, q);
    var ids := Ids(found);
    var docs := DeleteIds(c.docs, ids);
    FoundIdsPickMatches(c, q);
    DeleteIdsIsReject(c.docs, ids, q);
    FindRejectSplit(c.docs, q);
    StoredSplit(c.docs, f);
    FieldsElems(found);
    Outcome(Backend(true, Collection(docs, c.nextId)), Fields(found))
  }

  /** Unlike the set-backed stores, creating a triple twice stores two
      documents for it. */
  lemma CreateTwiceStoresTwice(b: Backend, t: Triple)
    requires Valid(b.perms)
    ensures
      var twice := Create(Create(b, [t]).backend, [t]).backend;
      multiset(Fields(twice.perms.docs))[t] == multiset(Fields(b.perms.docs))[t] + 2
  {
  }

  // ---------------------------------------------------------------- lifecycle

  datatype Call = CreateCall(perms: seq<Triple>) | ReadCall(rf: Filter) | DeleteCall(df: Filter)

  function Step(b: Backend, c: Call): (b': Backend)
    requires Valid(b.perms)
    ensures Valid(b'.perms)
  {
    match c
    case CreateCall(perms) => Create(b, perms).backend
    case ReadCall(f) => Read(b, f).backend
    case DeleteCall(f) => Delete(b, f).backend
  }

  function Run(b: Backend, calls: seq<Call>): Backend
    requires Valid(b.perms)
    decreases |calls|
  {
    if |calls| == 0 then b else Run(Step(b, calls[0]), calls[1..])
  }

  /** `_indexes_created` only moves from false to true. */
  lemma {:induction false} IndexFlagMonotone(b: Backend, calls: seq<Call>)
    requires Valid(b.perms)
    ensures Run(b, calls).indexesCreated <==> b.indexesCreated || |calls| > 0
    decreases |calls|
  {
    if |calls| > 0 {
      IndexFlagMonotone(Step(b, calls[0]), calls[1..]);
    }
  }
}

=== FILE: postgres.dfy ===
/** The Postgres backend: a `perms` table of rows, read and deleted through
    a WHERE clause built from the filter. */
module Postgres {
  import opened Base
  import opened Triples
  import Protocol

  function ColumnName(c: Field): string
  {
    match c
    case SubjectField => "subject_uuid"
    case PredicateField => "predicate"
    case ObjectField => "object_uuid"
  }

  /** Position of a column in the fixed emission order. */
  function Rank(c: Field): nat
  {
    match c
    case SubjectField => 0
    case PredicateField => 1
    case ObjectField => 2
  }

  /** The condition `<column> = ANY(%s)`, true of a row whose value in the
      column is one of the list bound to the placeholder. */
  datatype Condition = AnyOf(column: Field)

  function ConditionText(c: Condition): string
  {
    ColumnName(c.column) + " = ANY(%s)"
  }

  datatype Part = Part(condition: Condition, values: seq<string>)

  /** `_where_clause_parts`: one part per non-empty component, in the order
      subject, predicate, object, carrying that component's values. */
  function WhereClauseParts(f: Filter): (parts: seq<Part>)
    ensures |parts| <= 3
    ensures forall c :: Part(AnyOf(c), Component(f, c)) in parts <==> |Component(f, c)| > 0
    ensures forall p :: p in parts ==> p.values == Component(f, p.condition.column) && |p.values| > 0
    ensures forall i, j :: 0 <= i < j < |parts| ==>
              Rank(parts[i].condition.column) < Rank(parts[j].condition.column)
  {
    (if |f.subjects| > 0 then [Part(AnyOf(SubjectField), f.subjects)] else [])
    + (if |f.predicates| > 0 then [Part(AnyOf(PredicateField), f.predicates)] else [])
    + (if |f.objects| > 0 then [Part(AnyOf(ObjectField), f.objects)] else [])
  }

  /** The pair `(conditions, values)`: value `i` is bound to condition `i`. */
  datatype WhereClause = WhereClause(conditions: seq<Condition>, values: seq<seq<string>>)

  /** `tuple(zip(*parts))`: the conditions of the parts and, position for
      position, their values. */
  function Unzip(parts: seq<Part>): (w: WhereClause)
    ensures |w.conditions| == |w.values| == |parts|
    ensures forall i :: 0 <= i < |parts| ==>
              w.conditions[i] == parts[i].condition && w.values[i] == parts[i].values
  {
    if |parts| == 0 then WhereClause([], [])
    else
      var rest := Unzip(parts[1..]);
      WhereClause([parts[0].condition] + rest.conditions, [parts[0].values] + rest.values)
  }

  /** `build_where_clause`: `((), ())` without parts, else the parts
      transposed, so condition `i` and value list `i` come from part `i`. */
  function BuildWhereClause(f: Filter): (w: WhereClause)
    ensures |w.conditions| == |w.values| == |WhereClauseParts(f)|
    ensures forall i :: 0 <= i < |w.conditions| ==>
              Part(w.conditions[i], w.values[i]) == WhereClauseParts(f)[i]
  {
    var parts := WhereClauseParts(f);
    if |parts| == 0 then WhereClause([], []) else Unzip(parts)
  }

  /** At most three conditions, and none exactly when the filter is empty. */
  lemma WhereClauseEmptyIffUnfiltered(f: Filter)
    ensures |BuildWhereClause(f).conditions| <= 3
    ensures |BuildWhereClause(f).conditions| == 0 <==> IsUnfiltered(f)
  {
  }

  /** A column is constrained exactly when its component is non-empty, and
      then it is bound to that component's values. */
  lemma WhereClauseBindsComponents(f: Filter)
    ensures forall c :: AnyOf(c) in BuildWhereClause(f).conditions <==> |Component(f, c)| > 0
    ensures forall i :: 0 <= i < |BuildWhereClause(f).conditions| ==>
              BuildWhereClause(f).values[i] == Component(f, BuildWhereClause(f).conditions[i].column)
  {
  }

  /** Conditions come in the fixed order subject, predicate, object. */
  lemma WhereClauseOrdered(f: Filter)
    ensures forall i, j :: 0 <= i < j < |BuildWhereClause(f).conditions| ==>
              Rank(BuildWhereClause(f).conditions[i].column) < Rank(BuildWhereClause(f).conditions[j].column)
  {
  }

  /** A row satisfies the AND of the emitted conditions. */
  predicate Satisfies(row: Triple, w: WhereClause)
    ensures |w.conditions| == 0 ==> Satisfies(row, w)
  {
    forall i :: 0 <= i < |w.conditions| && i < |w.values| ==>
      Value(row, w.conditions[i].column) in w.values[i]
  }

  /** A row satisfying every emitted condition matches the filter. */
  lemma SatisfiesThenMatches(f: Filter, row: Triple)
    ensures Satisfies(row, BuildWhereClause(f)) ==> Matches(f, row)
  {
    var w := BuildWhereClause(f);
    if Satisfies(row, w) {
      WhereClauseBindsComponents(f);
      MatchesByField(f, row);
      forall c | |Component(f, c)| > 0 ensures Value(row, c) in Component(f, c) {
        var i :| 0 <= i < |w.conditions| && w.conditions[i] == AnyOf(c);
      }
    }
  }

  /** A row matching the filter satisfies every emitted condition. */
  lemma MatchesThenSatisfies(f: Filter, row: Triple)
    requires Matches(f, row)
    ensures Satisfies(row, BuildWhereClause(f))
  {
  }

  /** The conjunction of `col = ANY(vals)` conditions selects exactly the
      rows the filter matches. */
  lemma WhereClauseIsMatches(f: Filter, row: Triple)
    ensures Satisfies(row, BuildWhereClause(f)) <==> Matches(f, row)
  {
    SatisfiesThenMatches(f, row);
    if Matches(f, row) {
      MatchesThenSatisfies(f, row);
    }
  }

  // ---------------------------------------------------------------- statements

  const SelectClause: string := "SELECT subject_uuid, predicate, object_uuid FROM perms"
  const DeleteClause: string := "DELETE FROM perms"
  const ReturningClause: string := "RETURNING subject_uuid, predicate, object_uuid"

  /** Dropping the first element commutes with splitting at `i`. */
  lemma SliceShift<T>(s: seq<T>, i: nat)
    requires 0 < i < |s|
    ensures s[1..][..i - 1] == s[..i][1..]
    ensures s[1..][i - 1..] == s[i..]
    ensures s[..i][0] == s[0]
  {
  }

  /** Regrouping a middle piece of a statement text. */
  lemma Regroup(a: string, b: string, c: string, d: string)
    ensures a + (b + c) + d == a + b + c + d
  {
  }

  lemma ConcatAssoc(a: string, b: string, c: string, d: string)
    ensures a + (b + c + d) == a + b + c + d
  {
  }

  /** `a` is a prefix of `a + b + c`. */
  lemma PrefixOfConcat(a: string, b: string, c: string)
    ensures a <= a + b + c
  {
    assert (a + b + c)[..|a|] == a;
  }

  /** A suffix of `b` is a suffix of `a + b`. */
  lemma SuffixOfConcat(a: string, b: string, c: string)
    requires |c| <= |b| && b[|b| - |c|..] == c
    ensures (a + b)[|a + b| - |c|..] == c
  {
    assert (a + b)[|a + b| - |c|..] == b[|b| - |c|..];
  }

  /** The summed length of the texts. */
  function TotalLength(texts: seq<string>): nat
  {
    if |texts| == 0 then 0 else |texts[0]| + TotalLength(texts[1..])
  }

  /** Python's `' AND '.join(texts)`. */
  function JoinAnd(texts: seq<string>): (r: string)
    ensures |texts| > 0 ==> |r| == TotalLength(texts) + 5 * (|texts| - 1)
    ensures |texts| > 0 ==> |r| >= |texts[0]| + 5 * (|texts| - 1) && |r| >= |texts[|texts| - 1]|
  {
    if |texts| == 0 then ""
    else if |texts| == 1 then texts[0]
    else texts[0] + " AND " + JoinAnd(texts[1..])
  }

  /** The joined text starts with the first text and ends with the last. */
  lemma {:induction false} JoinAndEnds(texts: seq<string>)
    requires |texts| > 0
    ensures texts[0] <= JoinAnd(texts)
    ensures JoinAnd(texts)[|JoinAnd(texts)| - |texts[|texts| - 1]|..] == texts[|texts| - 1]
  {
    if |texts| > 1 {
      var rest := JoinAnd(texts[1..]);
      JoinAndEnds(texts[1..]);
      SuffixOfConcat(texts[0] + " AND ", rest, texts[|texts| - 1]);
      PrefixOfConcat(texts[0], " AND ", rest);
    }
  }

  /** Joining splits at every inner boundary into two joins around one
      ` AND `: the separator sits between each pair of neighbouring texts. */
  lemma {:induction false} JoinAndSplit(texts: seq<string>, i: nat)
    requires 0 < i < |texts|
    ensures JoinAnd(texts) == JoinAnd(texts[..i]) + " AND " + JoinAnd(texts[i..])
    decreases i
  {
    var head, tail := texts[..i], texts[1..];
    SliceShift(texts, i);
    if i == 1 {
      assert head == [texts[0]];
    } else {
      JoinAndSplit(tail, i - 1);
      var x, y, z := texts[0] + " AND ", JoinAnd(head[1..]), JoinAnd(texts[i..]);
      assert JoinAnd(texts) == x + JoinAnd(tail);
      assert JoinAnd(tail) == y + " AND " + z;
      assert JoinAnd(head) == x + y;
      ConcatAssoc(x, y, " AND ", z);
    }
  }

  function ConditionTexts(conditions: seq<Condition>): seq<string>
  {
    seq(|conditions|, i requires 0 <= i < |conditions| => ConditionText(conditions[i]))
  }

  /** SQL text and the parameters bound to its placeholders. */
  datatype Statement = Statement(text: string, params: seq<seq<string>>)

  /** `a` opens and `b` closes the text `a + mid + b`. */
  lemma Framed(a: string, mid: string, b: string)
    ensures a <= a + mid + b
    ensures (a + mid + b)[|a + mid + b| - |b|..] == b
  {
    assert (a + mid + b)[..|a|] == a;
    assert (a + mid + b)[|a + mid|..] == b;
  }

  /** The SELECT that `read` sends: with a WHERE clause and bound values
      only when there are conditions. */
  function ReadStatement(f: Filter): (s: Statement)
    ensures SelectClause <= s.text
    ensures |s.text| >= 1 && s.text[|s.text| - 1..] == ";"
    ensures s.params == BuildWhereClause(f).values
  {
    var w := BuildWhereClause(f);
    var mid := if |w.conditions| > 0 then " WHERE " + JoinAnd(ConditionTexts(w.conditions)) else "";
    Framed(SelectClause, mid, ";");
    Statement(SelectClause + mid + ";", if |w.conditions| > 0 then w.values else [])
  }

  /** The DELETE … RETURNING that `delete` sends. */
  function DeleteStatement(f: Filter): (s: Statement)
    ensures DeleteClause <= s.text
    ensures |s.text| >= |" " + ReturningClause + ";"|
    ensures s.text[|s.text| - |" " + ReturningClause + ";"|..] == " " + ReturningClause + ";"
    ensures s.params == BuildWhereClause(f).values
  {
    var w := BuildWhereClause(f);
    var mid := if |w.conditions| > 0 then " WHERE " + JoinAnd(ConditionTexts(w.conditions)) else "";
    Framed(DeleteClause, mid, " " + ReturningClause + ";");
    Statement(DeleteClause + mid + (" " + ReturningClause + ";"), if |w.conditions| > 0 then w.values else [])
  }

  /** No WHERE clause is emitted, and nothing is bound, exactly when the
      filter is empty. */
  lemma NoWhereIffUnfiltered(f: Filter)
    ensures ReadStatement(f) == Statement(SelectClause + ";", []) <==> IsUnfiltered(f)
    ensures DeleteStatement(f) == Statement(DeleteClause + " " + ReturningClause + ";", []) <==> IsUnfiltered(f)
  {
    var w := BuildWhereClause(f);
    WhereClauseEmptyIffUnfiltered(f);
    if |w.conditions| > 0 {
      assert |ReadStatement(f).text| > |SelectClause + ";"|;
      assert |DeleteStatement(f).text| > |DeleteClause + " " + ReturningClause + ";"|;
    } else {
      assert SelectClause + "" + ";" == SelectClause + ";";
      assert DeleteClause + "" + (" " + ReturningClause + ";") == DeleteClause + " " + ReturningClause + ";";
    }
  }

  /** With a filter, the statements carry `WHERE` followed by the condition
      texts joined with ` AND `. */
  lemma FilteredStatementText(f: Filter)
    requires !IsUnfiltered(f)
    ensures ReadStatement(f).text ==
              SelectClause + " WHERE " + JoinAnd(ConditionTexts(BuildWhereClause(f).conditions)) + ";"
    ensures DeleteStatement(f).text ==
              DeleteClause + " WHERE " + JoinAnd(ConditionTexts(BuildWhereClause(f).conditions)) + " " + ReturningClause + ";"
  {
    WhereClauseEmptyIffUnfiltered(f);
    var joined := JoinAnd(ConditionTexts(BuildWhereClause(f).conditions));
    Regroup(SelectClause, " WHERE ", joined, ";");
    Regroup(DeleteClause, " WHERE ", joined, " " + ReturningClause + ";");
    ConcatAssoc(DeleteClause + " WHERE " + joined, " ", ReturningClause, ";");
  }

  /** With a filter, both statements open with their clause followed by
      ` WHERE `. */
  lemma FilteredStatementsOpenWithWhere(f: Filter)
    requires !IsUnfiltered(f)
    ensures SelectClause + " WHERE " <= ReadStatement(f).text
    ensures DeleteClause + " WHERE " <= DeleteStatement(f).text
  {
    FilteredStatementText(f);
    var joined := JoinAnd(ConditionTexts(BuildWhereClause(f).conditions));
    PrefixOfConcat(SelectClause + " WHERE ", joined, ";");
    ConcatAssoc(DeleteClause + " WHERE " + joined, " ", ReturningClause, ";");
    PrefixOfConcat(DeleteClause + " WHERE ", joined, " " + ReturningClause + ";");
  }

  /** Each emitted condition's placeholder receives its own list of values. */
  lemma StatementBindsValues(f: Filter)
    ensures |ReadStatement(f).params| == |BuildWhereClause(f).conditions|
    ensures |DeleteStatement(f).params| == |BuildWhereClause(f).conditions|
    ensures forall i :: 0 <= i < |ReadStatement(f).params| ==>
              ReadStatement(f).params[i] == Component(f, BuildWhereClause(f).conditions[i].column)
    ensures forall i :: 0 <= i < |DeleteStatement(f).params| ==>
              DeleteStatement(f).params[i] == Component(f, BuildWhereClause(f).conditions[i].column)
  {
  }

  // ---------------------------------------------------------------- table

  /** The rows a WHERE clause selects, in table order. */
  function SelectRows(rows: seq<Triple>, w: WhereClause): (r: seq<Triple>)
    ensures forall t :: t in r <==> t in rows && Satisfies(t, w)
  {
    if |rows| == 0 then []
    else
      assert forall t :: t in rows <==> t == rows[0] || t in rows[1..] by {
        assert rows == [rows[0]] + rows[1..];
      }
      (if Satisfies(rows[0], w) then [rows[0]] else []) + SelectRows(rows[1..], w)
  }

  /** The rows a WHERE clause leaves in place, in table order. */
  function RemainingRows(rows: seq<Triple>, w: WhereClause): (r: seq<Triple>)
    ensures forall t :: t in r <==> t in rows && !Satisfies(t, w)
  {
    if |rows| == 0 then []
    else
      assert forall t :: t in rows <==> t == rows[0] || t in rows[1..] by {
        assert rows == [rows[0]] + rows[1..];
      }
      (if Satisfies(rows[0], w) then [] else [rows[0]]) + RemainingRows(rows[1..], w)
  }

  /** A DELETE splits the table into the returned rows and the kept rows,
      copy for copy. */
  lemma {:induction false} DeleteSplitsTable(rows: seq<Triple>, w: WhereClause)
    ensures multiset(rows) == multiset(SelectRows(rows, w)) + multiset(RemainingRows(rows, w))
  {
    if |rows| > 0 {
      DeleteSplitsTable(rows[1..], w);
      assert rows == [rows[0]] + rows[1..];
    }
  }

  /** `_table_initialized` and the table's rows. */
  datatype Backend = Backend(tableInitialized: bool, rows: seq<Triple>)

  datatype Outcome = Outcome(backend: Backend, result: set<Triple>)

  /** A fresh adapter over whatever the table already holds. */
  function Init(existing: seq<Triple>): (b: Backend)
    ensures !b.tableInitialized
    ensures b.rows == existing
  {
    Backend(false, existing)
  }

  /** `_ensure_table`: provision once, then remember it; creating a table
      that exists changes no row. */
  function EnsureTable(b: Backend): (b': Backend)
    ensures b'.tableInitialized
    ensures b'.rows == b.rows
  {
    if !b.tableInitialized then Backend(true, b.rows) else b
  }

  /** `create(perms)`: insert one row per input triple and return the set of
      input triples. Whether the insert statement skips rows already
      present is not known, so duplicates are inserted. */
  function Create(b: Backend, perms: seq<Triple>): (r: Outcome)
    ensures r.backend.tableInitialized
    ensures Protocol.CreateMeets(Elems(b.rows), perms, Elems(r.backend.rows), r.result)
    ensures multiset(r.backend.rows) == multiset(b.rows) + multiset(perms)
  {
    var b1 := EnsureTable(b);
    Outcome(Backend(b1.tableInitialized, b1.rows + perms), Elems(perms))
  }

  /** `read(filter)`: SELECT with or without a WHERE clause. */
  function Read(b: Backend, f: Filter): (r: Outcome)
    ensures r.backend == EnsureTable(b)
    ensures Protocol.ReadMeets(Elems(b.rows), f, r.result)
  {
    var b1 := EnsureTable(b);
    var w := BuildWhereClause(f);
    if |w.conditions| > 0 then
      assert forall t :: Satisfies(t, w) <==> Matches(f, t) by {
        forall t ensures Satisfies(t, w) <==> Matches(f, t) { WhereClauseIsMatches(f, t); }
      }
      Outcome(b1, Elems(SelectRows(b1.rows, w)))
    else
      Outcome(b1, Elems(b1.rows))
  }

  /** `delete(filter)`: DELETE … RETURNING with or without a WHERE clause;
      the result is the set of removed rows. */
  function Delete(b: Backend, f: Filter): (r: Outcome)
    ensures r.backend.tableInitialized
    ensures r.result == Read(b, f).result
    ensures Protocol.DeleteMeets(Elems(b.rows), f, Elems(r.backend.rows), r.result)
    ensures IsUnfiltered(f) ==> r.backend.rows == []
  {
    WhereClauseEmptyIffUnfiltered(f);
    var b1 := EnsureTable(b);
    var w := BuildWhereClause(f);
    assert forall t :: Satisfies(t, w) <==> Matches(f, t) by {
      forall t ensures Satisfies(t, w) <==> Matches(f, t) { WhereClauseIsMatches(f, t); }
    }
    if |w.conditions| > 0 then
      Outcome(Backend(true, RemainingRows(b1.rows, w)), Elems(SelectRows(b1.rows, w)))
    else
      Outcome(Backend(true, []), Elems(b1.rows))
  }

  /** The rows a delete returns are the rows it removed: with multiplicity,
      the table before is the table after plus one copy per removed row. */
  lemma DeleteReturnsRemoved(b: Backend, f: Filter)
    ensures exists removed: seq<Triple> ::
              && Elems(removed) == Delete(b, f).result
              && multiset(b.rows) == multiset(Delete(b, f).backend.rows) + multiset(removed)
  {
    var w := BuildWhereClause(f);
    if |w.conditions| > 0 {
      DeleteSplitsTable(b.rows, w);
      var removed := SelectRows(b.rows, w);
      assert multiset(b.rows) == multiset(Delete(b, f).backend.rows) + multiset(removed);
    } else {
      assert multiset(b.rows) == multiset(Delete(b, f).backend.rows) + multiset(b.rows);
    }
  }

  // ---------------------------------------------------------------- lifecycle

  datatype Call = CreateCall(perms: seq<Triple>) | ReadCall(rf: Filter) | DeleteCall(df: Filter)

  function Step(b: Backend, c: Call): Backend
  {
    match c
    case CreateCall(perms) => Create(b, perms).backend
    case ReadCall(f) => Read(b, f).backend
    case DeleteCall(f) => Delete(b, f).backend
  }

  function Run(b: Backend, calls: seq<Call>): Backend
    decreases |calls|
  {
    if |calls| == 0 then b else Run(Step(b, calls[0]), calls[1..])
  }

  /** `_table_initialized` only moves from false to true: after any calls it
      is set exactly when it was set before or some call was made. */
  lemma {:induction false} TableFlagMonotone(b: Backend, calls: seq<Call>)
    ensures Run(b, calls).tableInitialized <==> b.tableInitialized || |calls| > 0
    decreases |calls|
  {
    if |calls| > 0 {
      TableFlagMonotone(Step(b, calls[0]), calls[1..]);
    }
  }
}

=== FILE: protocol.dfy ===
/** The contract every backend honours, stated over the set of stored
    triples that the backend's own layout represents. */
module Protocol {
  import opened Base
  import opened Triples

  /** `create(perms)`: each given triple is persisted, nothing else is added,
      and the reported triples are the given ones. */
  ghost predicate CreateMeets(before: set<Triple>, perms: seq<Triple>, after: set<Triple>, reported: set<Triple>)
  {
    && (forall t :: t in after <==> t in before || t in perms)
    && reported == Elems(perms)
  }

  /** `read(filter)`: exactly the stored triples the filter matches. */
  ghost predicate ReadMeets(store: set<Triple>, f: Filter, result: set<Triple>)
  {
    forall t :: t in result <==> t in store && Matches(f, t)
  }

  /** `delete(filter)`: exactly the matching triples are removed and reported,
      and every other stored triple stays. */
  ghost predicate DeleteMeets(before: set<Triple>, f: Filter, after: set<Triple>, deleted: set<Triple>)
  {
    && (forall t :: t in deleted <==> t in before && Matches(f, t))
    && (forall t :: t in after <==> t in before && !Matches(f, t))
  }

  /** A read with no arguments returns every stored triple. */
  lemma ReadUnfilteredIsAll(store: set<Triple>, result: set<Triple>)
    requires ReadMeets(store, Unfiltered, result)
    ensures result == store
  {
  }

  /** A delete with no arguments deletes, and reports, every stored triple. */
  lemma DeleteUnfilteredIsAll(before: set<Triple>, after: set<Triple>, deleted: set<Triple>)
    requires DeleteMeets(before, Unfiltered, after, deleted)
    ensures deleted == before
    ensures after == {}
  {
  }

  /** Creating the same triples twice leaves the store of creating them once. */
  lemma CreateIsIdempotent(s0: set<Triple>, perms: seq<Triple>, s1: set<Triple>, r1: set<Triple>, s2: set<Triple>, r2: set<Triple>)
    requires CreateMeets(s0, perms, s1, r1)
    requires CreateMeets(s1, perms, s2, r2)
    ensures s2 == s1
    ensures r2 == r1
  {
  }

  /** After a delete, the same filter reads nothing, and deleting again
      reports nothing and changes nothing. */
  lemma DeleteThenNothingMatches(s0: set<Triple>, f: Filter, s1: set<Triple>, d1: set<Triple>, r: set<Triple>, s2: set<Triple>, d2: set<Triple>)
    requires DeleteMeets(s0, f, s1, d1)
    requires ReadMeets(s1, f, r)
    requires DeleteMeets(s1, f, s2, d2)
    ensures r == {}
    ensures d2 == {}
    ensures s2 == s1
  {
  }
}

=== FILE: redis.dfy ===
/** The Redis backend: one Redis set of predicates per `(subject, object)`
    pair, stored under the key `perms:<subject>:<object>`, and the
    abstraction of that keyspace to a set of triples. */
module Redis {
  import opened Base
  import opened Triples
  import opened RedisKeys
  import Protocol

  /** The Redis keyspace: each key holds a set of strings. Redis keeps no
      empty set: removing the last member removes the key. */
  type Store = map<string, set<Predicate>>

  /** `key.decode().split(":")` not yielding three pieces raises ValueError. */
  datatype RedisError = MalformedKey(key: string)

  datatype Created = Created(store: Store, reported: seq<Triple>)

  /** SMEMBERS: a missing key reads as the empty set. */
  function Members(m: Store, k: string): (r: set<Predicate>)
    ensures r == {} <==> k !in m || m[k] == {}
  {
    if k in m then m[k] else {}
  }

  /** SADD of one member. */
  function SAdd(m: Store, k: string, p: Predicate): (r: Store)
    ensures Members(r, k) == Members(m, k) + {p}
    ensures forall k' :: k' != k ==> SameAt(m, r, k')
  {
    m[k := Members(m, k) + {p}]
  }

  datatype Removed = Removed(store: Store, count: nat)

  /** SREM of one member: reports how many members it removed (0 or 1) and
      drops the key once its set is empty. */
  function SRem(m: Store, k: string, p: Predicate): (r: Removed)
    ensures Members(r.store, k) == Members(m, k) - {p}
    ensures r.count == 1 <==> p in Members(m, k)
    ensures forall k' :: k' != k ==> SameAt(m, r.store, k')
  {
    if p !in Members(m, k) then Removed(m, 0)
    else if Members(m, k) == {p} then Removed(m - {k}, 1)
    else Removed(m[k := m[k] - {p}], 1)
  }

  /** Key `k` holds the same thing in both keyspaces. */
  predicate SameAt(m: Store, m': Store, k: string)
  {
    (k in m <==> k in m') && (k in m ==> m[k] == m'[k])
  }

  /** The keys `scan_iter(match="perms:*")` visits. */
  function PermKeys(m: Store): set<string>
  {
    set k | k in m && IsPermKey(k)
  }

  /** Every permission key splits into exactly three pieces, so a scan over
      the keyspace raises nothing. */
  predicate WellFormed(m: Store)
  {
    forall k :: k in m && IsPermKey(k) ==> ParseKey(k).Some?
  }

  /** The triples a keyspace represents: `(s, p, o)` for each member `p` of
      each permission key that decodes to `(s, o)`. */
  function Abs(m: Store): (r: set<Triple>)
    ensures forall t :: t in r ==> ColonFree(t.subject) && ColonFree(t.obj)
  {
    set k, p | k in m && IsPermKey(k) && ParseKey(k).Some? && p in m[k]
      :: Triple(ParseKey(k).value.subject, p, ParseKey(k).value.obj)
  }

  /** Triple `(s, p, o)` is stored iff its ids are colon-free and `p` is a
      member of the set at `perms:s:o`. */
  lemma AbsMembership(m: Store, t: Triple)
    ensures t in Abs(m) <==>
              ColonFree(t.subject) && ColonFree(t.obj) && t.pred in Members(m, KeyOf(t))
  {
    if t in Abs(m) {
      var k, p :| k in m && IsPermKey(k) && ParseKey(k).Some? && p in m[k]
                  && t == Triple(ParseKey(k).value.subject, p, ParseKey(k).value.obj);
      FormatParse(k);
    }
    if ColonFree(t.subject) && ColonFree(t.obj) && t.pred in Members(m, KeyOf(t)) {
      var k := KeyOf(t);
      ParseFormat(t.subject, t.obj);
      assert t == Triple(ParseKey(k).value.subject, t.pred, ParseKey(k).value.obj);
    }
  }

  /** The stored triples filed under a decodable permission key are those
      carrying its pair and one of its members. */
  lemma AtKey(m: Store, key: string, kp: KeyPair, t: Triple)
    requires IsPermKey(key) && ParseKey(key) == Some(kp)
    ensures (t in Abs(m) && KeyOf(t) == key) <==>
              (t.subject == kp.subject && t.obj == kp.obj && t.pred in Members(m, key))
  {
    FormatParse(key);
    AbsMembership(m, t);
    if t in Abs(m) && KeyOf(t) == key {
      FormatKeyInjective(t.subject, t.obj, kp.subject, kp.obj);
    }
  }

  /** Changing one decodable key changes only the triples filed under it. */
  lemma AbsAfterKeyChange(m: Store, m': Store, key: string, kp: KeyPair, t: Triple)
    requires IsPermKey(key) && ParseKey(key) == Some(kp)
    requires forall k :: k != key ==> SameAt(m, m', k)
    ensures t in Abs(m') <==>
              if KeyOf(t) == key then t.subject == kp.subject && t.obj == kp.obj && t.pred in Members(m', key)
              else t in Abs(m)
  {
    AtKey(m', key, kp, t);
    AbsMembership(m, t);
    AbsMembership(m', t);
    if KeyOf(t) != key {
      assert SameAt(m, m', KeyOf(t));
    }
  }

  // ---------------------------------------------------------------- create

  /** One SADD per input triple, in input order. */
  function CreateStore(m: Store, perms: seq<Triple>): (r: Store)
    ensures forall k :: (forall t :: t in perms ==> KeyOf(t) != k) ==> SameAt(m, r, k)
    decreases |perms|
  {
    if |perms| == 0 then m
    else
      var m1 := SAdd(m, KeyOf(perms[0]), perms[0].pred);
      var r := CreateStore(m1, perms[1..]);
      assert forall k :: (forall t :: t in perms ==> KeyOf(t) != k) ==> SameAt(m, r, k) by {
        forall k | forall t :: t in perms ==> KeyOf(t) != k ensures SameAt(m, r, k) {
          assert perms[0] in perms;
          assert forall t :: t in perms[1..] ==> KeyOf(t) != k by {
            assert forall t :: t in perms[1..] ==> t in perms;
          }
          assert SameAt(m1, r, k);
        }
      }
      r
  }

  predicate AllColonFree(perms: seq<Triple>)
  {
    forall t :: t in perms ==> ColonFree(t.subject) && ColonFree(t.obj)
  }

  /** `create(perms)`: file each predicate under its pair's key and return
      the input triples in input order. For UUID ids, which hold no ':',
      the represented set gains exactly the input triples. */
  function Create(m: Store, perms: seq<Triple>): (r: Created)
    ensures r.reported == perms
    ensures AllColonFree(perms) ==> Protocol.CreateMeets(Abs(m), perms, Abs(r.store), Elems(r.reported))
  {
    var m' := CreateStore(m, perms);
    if AllColonFree(perms) then
      CreateStoreAbs(m, perms);
      Created(m', perms)
    else
      Created(m', perms)
  }

  /** Adding one triple's predicate under its key adds exactly that triple. */
  lemma AddOneAbs(m: Store, t0: Triple, t: Triple)
    requires ColonFree(t0.subject) && ColonFree(t0.obj)
    ensures t in Abs(SAdd(m, KeyOf(t0), t0.pred)) <==> t in Abs(m) || t == t0
  {
    var m' := SAdd(m, KeyOf(t0), t0.pred);
    AbsMembership(m, t);
    AbsMembership(m', t);
    if ColonFree(t.subject) && ColonFree(t.obj) && KeyOf(t) == KeyOf(t0) {
      FormatKeyInjective(t.subject, t.obj, t0.subject, t0.obj);
    }
  }

  lemma {:induction false} CreateStoreAbs(m: Store, perms: seq<Triple>)
    requires AllColonFree(perms)
    ensures forall t :: t in Abs(CreateStore(m, perms)) <==> t in Abs(m) || t in perms
    decreases |perms|
  {
    if |perms| > 0 {
      var m1 := SAdd(m, KeyOf(perms[0]), perms[0].pred);
      assert perms[0] in perms;
      assert AllColonFree(perms[1..]) by {
        forall t | t in perms[1..] ensures ColonFree(t.subject) && ColonFree(t.obj) {
          assert t in perms;
        }
      }
      CreateStoreAbs(m1, perms[1..]);
      forall t ensures t in Abs(CreateStore(m, perms)) <==> t in Abs(m) || t in perms {
        AddOneAbs(m, perms[0], t);
        assert t in perms <==> t == perms[0] || t in perms[1..] by {
          assert perms == [perms[0]] + perms[1..];
        }
      }
    }
  }

  /** Create never removes a member, and leaves every input predicate a
      member of its pair's key. */
  lemma {:induction false} CreateStoreStores(m: Store, perms: seq<Triple>)
    ensures forall k, p :: p in Members(m, k) ==> p in Members(CreateStore(m, perms), k)
    ensures forall t :: t in perms ==> t.pred in Members(CreateStore(m, perms), KeyOf(t))
    decreases |perms|
  {
    if |perms| > 0 {
      var m1 := SAdd(m, KeyOf(perms[0]), perms[0].pred);
      CreateStoreStores(m1, perms[1..]);
      assert forall k, p :: p in Members(m, k) ==> p in Members(m1, k);
      forall t | t in perms ensures t.pred in Members(CreateStore(m, perms), KeyOf(t)) {
        if t != perms[0] {
          assert perms == [perms[0]] + perms[1..];
          assert t in perms[1..];
        }
      }
    }
  }

  /** Adding predicates that are already members changes nothing. */
  lemma {:induction false} CreateStorePresent(m: Store, perms: seq<Triple>)
    requires forall t :: t in perms ==> t.pred in Members(m, KeyOf(t))
    ensures CreateStore(m, perms) == m
    decreases |perms|
  {
    if |perms| > 0 {
      var t := perms[0];
      assert t in perms;
      assert KeyOf(t) in m && m[KeyOf(t)] + {t.pred} == m[KeyOf(t)];
      assert SAdd(m, KeyOf(t), t.pred) == m;
      assert forall u :: u in perms[1..] ==> u in perms;
      CreateStorePresent(m, perms[1..]);
    }
  }

  /** Creating the same triples twice leaves the very keyspace of creating
      them once: SADD has set semantics. */
  lemma CreateIdempotent(m: Store, perms: seq<Triple>)
    ensures Create(Create(m, perms).store, perms).store == Create(m, perms).store
  {
    var m1 := CreateStore(m, perms);
    CreateStoreStores(m, perms);
    CreateStorePresent(m1, perms);
  }

  /** With colon-free ids, create keeps every permission key decodable. */
  lemma {:induction false} CreateKeepsWellFormed(m: Store, perms: seq<Triple>)
    requires WellFormed(m) && AllColonFree(perms)
    ensures WellFormed(Create(m, perms).store)
    decreases |perms|
  {
    if |perms| > 0 {
      var t := perms[0];
      assert t in perms;
      ParseFormat(t.subject, t.obj);
      var m1 := SAdd(m, KeyOf(t), t.pred);
      assert forall u :: u in perms[1..] ==> u in perms;
      CreateKeepsWellFormed(m1, perms[1..]);
    }
  }

  /** An id holding ':' yields a key that every later scan fails to split
      into three pieces. */
  lemma ColonIdBreaksScan(m: Store, perms: seq<Triple>, t: Triple)
    requires t in perms && !(ColonFree(t.subject) && ColonFree(t.obj))
    ensures !WellFormed(Create(m, perms).store)
  {
    CreateStoreStores(m, perms);
    ColonBreaksParse(t.subject, t.obj);
    assert KeyOf(t) in Create(m, perms).store;
  }

  // ---------------------------------------------------------------- read

  /** The `sismember` loop: `(s, p, o)` for each requested predicate that
      is a member of the key's set. */
  function PresentPredicates(kp: KeyPair, preds: seq<Predicate>, members: set<Predicate>): (r: seq<Triple>)
    ensures forall t :: t in r <==>
              t.subject == kp.subject && t.obj == kp.obj && t.pred in preds && t.pred in members
  {
    if |preds| == 0 then []
    else
      var rest := PresentPredicates(kp, preds[1..], members);
      assert forall p :: p in preds <==> p == preds[0] || p in preds[1..] by {
        assert preds == [preds[0]] + preds[1..];
      }
      if preds[0] in members then [Triple(kp.subject, preds[0], kp.obj)] + rest else rest
  }

  /** The `smembers` loop: `(s, p, o)` for each listed member. */
  function Attach(kp: KeyPair, listed: seq<Predicate>): (r: seq<Triple>)
    ensures forall t :: t in r <==> t.subject == kp.subject && t.obj == kp.obj && t.pred in listed
  {
    if |listed| == 0 then []
    else
      assert forall p :: p in listed <==> p == listed[0] || p in listed[1..] by {
        assert listed == [listed[0]] + listed[1..];
      }
      [Triple(kp.subject, listed[0], kp.obj)] + Attach(kp, listed[1..])
  }

  /** The body of `read`'s scan loop for one decoded key. */
  method ReadKey(m: Store, key: string, kp: KeyPair, f: Filter) returns (chunk: seq<Triple>)
    requires IsPermKey(key) && ParseKey(key) == Some(kp)
    ensures forall t :: t in chunk <==> t in Abs(m) && Matches(f, t) && KeyOf(t) == key
  {
    forall t ensures (t in Abs(m) && KeyOf(t) == key) <==>
                       (t.subject == kp.subject && t.obj == kp.obj && t.pred in Members(m, key)) {
      AtKey(m, key, kp, t);
    }
    if |f.subjects| > 0 && kp.subject !in f.subjects {
      return [];
    }
    if |f.objects| > 0 && kp.obj !in f.objects {
      return [];
    }
    if |f.predicates| > 0 {
      chunk := PresentPredicates(kp, f.predicates, Members(m, key));
    } else {
      var listed := Enumerate(Members(m, key));
      chunk := Attach(kp, listed);
    }
  }

  /** `read(filter)`: scan every permission key, decode it, skip pairs the
      subject or object component excludes, and collect the predicates the
      predicate component admits. `scan` is the order in which SCAN yields
      the keys; it may repeat a key. */
  method Read(m: Store, scan: seq<string>, f: Filter) returns (r: Result<seq<Triple>, RedisError>)
    requires Elems(scan) == PermKeys(m)
    ensures r.Success? <==> WellFormed(m)
    ensures r.Success? ==> Protocol.ReadMeets(Abs(m), f, Elems(r.value))
  {
    var results: seq<Triple> := [];
    var i := 0;
    while i < |scan|
      invariant 0 <= i <= |scan|
      invariant forall j :: 0 <= j < i ==> ParseKey(scan[j]).Some?
      invariant forall t :: t in results <==> t in Abs(m) && Matches(f, t) && KeyOf(t) in scan[..i]
    {
      var key := scan[i];
      assert key in Elems(scan);
      match ParseKey(key) {
        case None =>
          return Failure(MalformedKey(key));
        case Some(kp) =>
          var chunk := ReadKey(m, key, kp, f);
          assert scan[..i + 1] == scan[..i] + [key];
          results := results + chunk;
      }
      i := i + 1;
    }
    assert scan[..|scan|] == scan;
    forall t | t in Abs(m) ensures KeyOf(t) in scan {
      AbsMembership(m, t);
      assert KeyOf(t) in PermKeys(m);
    }
    forall k | k in m && IsPermKey(k) ensures ParseKey(k).Some? {
      assert k in Elems(scan);
    }
    r := Success(results);
  }

  // ---------------------------------------------------------------- delete

  /** The `srem` loop: remove each requested predicate from the key and
      report it only when Redis says one member was removed. */
  method RemovePredicates(m: Store, key: string, kp: KeyPair, preds: seq<Predicate>) returns (m': Store, chunk: seq<Triple>)
    ensures Members(m', key) == Members(m, key) - Elems(preds)
    ensures forall t :: t in chunk <==>
              t.subject == kp.subject && t.obj == kp.obj && t.pred in preds && t.pred in Members(m, key)
    ensures forall k :: k != key ==> SameAt(m, m', k)
  {
    m' := m;
    chunk := [];
    var j := 0;
    while j < |preds|
      invariant 0 <= j <= |preds|
      invariant Members(m', key) == Members(m, key) - Elems(preds[..j])
      invariant forall t :: t in chunk <==>
                  t.subject == kp.subject && t.obj == kp.obj && t.pred in preds[..j] && t.pred in Members(m, key)
      invariant forall k :: k != key ==> SameAt(m, m', k)
    {
      var removed := SRem(m', key, preds[j]);
      assert preds[..j + 1] == preds[..j] + [preds[j]];
      forall k | k != key ensures SameAt(m, removed.store, k) {
        assert SameAt(m, m', k) && SameAt(m', removed.store, k);
      }
      m' := removed.store;
      if removed.count == 1 {
        chunk := chunk + [Triple(kp.subject, preds[j], kp.obj)];
      }
      j := j + 1;
    }
    assert preds[..|preds|] == preds;
  }

  /** The body of `delete`'s scan loop for one decoded key. */
  method DeleteKey(m: Store, key: string, kp: KeyPair, f: Filter) returns (m': Store, chunk: seq<Triple>)
    requires IsPermKey(key) && ParseKey(key) == Some(kp)
    ensures forall t :: t in chunk <==> t in Abs(m) && Matches(f, t) && KeyOf(t) == key
    ensures forall t :: t in Abs(m') <==> t in Abs(m) && !(Matches(f, t) && KeyOf(t) == key)
    ensures forall k :: k != key ==> SameAt(m, m', k)
  {
    forall t ensures (t in Abs(m) && KeyOf(t) == key) <==>
                       (t.subject == kp.subject && t.obj == kp.obj && t.pred in Members(m, key)) {
      AtKey(m, key, kp, t);
    }
    if |f.subjects| > 0 && kp.subject !in f.subjects {
      return m, [];
    }
    if |f.objects| > 0 && kp.obj !in f.objects {
      return m, [];
    }
    if |f.predicates| > 0 {
      m', chunk := RemovePredicates(m, key, kp, f.predicates);
    } else {
      var preds := Members(m, key);
      m' := m - {key};
      var listed := Enumerate(preds);
      chunk := Attach(kp, listed);
    }
    forall t ensures t in Abs(m') <==> t in Abs(m) && !(Matches(f, t) && KeyOf(t) == key) {
      AbsAfterKeyChange(m, m', key, kp, t);
      AtKey(m, key, kp, t);
    }
  }

  /** `delete(filter)`: the same scan as `read`, removing what it would
      have read. Keys outside the permission namespace are never touched.
      A key that fails to split raises after the keys before it were
      already processed. */
  method Delete(m: Store, scan: seq<string>, f: Filter) returns (m': Store, r: Result<seq<Triple>, RedisError>)
    requires Elems(scan) == PermKeys(m)
    ensures r.Success? <==> WellFormed(m)
    ensures r.Success? ==> Protocol.DeleteMeets(Abs(m), f, Abs(m'), Elems(r.value))
    ensures forall k :: !IsPermKey(k) ==> SameAt(m, m', k)
  {
    var deleted: seq<Triple> := [];
    m' := m;
    var i := 0;
    while i < |scan|
      invariant 0 <= i <= |scan|
      invariant forall j :: 0 <= j < i ==> ParseKey(scan[j]).Some?
      invariant forall t :: t in deleted <==> t in Abs(m) && Matches(f, t) && KeyOf(t) in scan[..i]
      invariant forall t :: t in Abs(m') <==> t in Abs(m) && !(Matches(f, t) && KeyOf(t) in scan[..i])
      invariant forall k :: k !in scan[..i] ==> SameAt(m, m', k)
    {
      var key := scan[i];
      assert key in Elems(scan);
      assert scan[..i + 1] == scan[..i] + [key];
      match ParseKey(key) {
        case None =>
          forall k | !IsPermKey(k) ensures SameAt(m, m', k) {
            assert k !in Elems(scan);
          }
          return m', Failure(MalformedKey(key));
        case Some(kp) =>
          var next, chunk := DeleteKey(m', key, kp, f);
          forall k | k !in scan[..i + 1] ensures SameAt(m, next, k) {
            assert k !in scan[..i] && k != key;
            assert SameAt(m, m', k) && SameAt(m', next, k);
          }
          deleted := deleted + chunk;
          m' := next;
      }
      i := i + 1;
    }
    assert scan[..|scan|] == scan;
    forall t | t in Abs(m) ensures KeyOf(t) in scan {
      AbsMembership(m, t);
      assert KeyOf(t) in PermKeys(m);
    }
    forall k | k in m && IsPermKey(k) ensures ParseKey(k).Some? {
      assert k in Elems(scan);
    }
    forall k | !IsPermKey(k) ensures SameAt(m, m', k) {
      assert k !in Elems(scan);
    }
    r := Success(deleted);
  }
}

=== FILE: redis_keys.dfy ===
/** The Redis key layout `perms:<subject>:<object>` and its decoding, which
    splits a key on ':' the way Python's `str.split` does and demands
    exactly three pieces. */
module RedisKeys {
  import opened Base
  import opened Triples

  const Sep: char := ':'

  /** The namespace every permission key starts with; `scan_iter` matches
      the glob `perms:*`. */
  const Prefix: string := "perms:"

  predicate ColonFree(s: string)
  {
    Sep !in s
  }

  predicate IsPermKey(k: string)
  {
    |k| >= |Prefix| && k[..|Prefix|] == Prefix
  }

  /** The decoded `(subject, object)` of a key. */
  datatype KeyPair = KeyPair(subject: Id, obj: Id)

  /** The key under which `create` files the predicates linking `subject`
      to `obj`. */
  function FormatKey(subject: Id, obj: Id): (k: string)
    ensures IsPermKey(k)
  {
    Prefix + subject + [Sep] + obj
  }

  /** The key of the pair a triple belongs to. */
  function KeyOf(t: Triple): string
  {
    FormatKey(t.subject, t.obj)
  }

  /** Position of the first occurrence of `c`. */
  function IndexOf(s: string, c: char): (i: nat)
    requires c in s
    ensures i < |s| && s[i] == c
    ensures c !in s[..i]
  {
    if s[0] == c then 0 else 1 + IndexOf(s[1..], c)
  }

  /** Python's `s.split(sep)`: the pieces between occurrences of `sep`. */
  function Split(s: string, sep: char): (parts: seq<string>)
    ensures |parts| >= 1
    ensures forall i :: 0 <= i < |parts| ==> sep !in parts[i]
    decreases |s|
  {
    if sep !in s then [s]
    else
      var i := IndexOf(s, sep);
      [s[..i]] + Split(s[i + 1..], sep)
  }

  /** Python's `sep.join(parts)`. */
  function Join(parts: seq<string>, sep: char): string
    requires |parts| >= 1
  {
    if |parts| == 1 then parts[0] else parts[0] + [sep] + Join(parts[1..], sep)
  }

  /** Number of occurrences of `c` in `s`. */
  function Count(s: string, c: char): nat
  {
    if |s| == 0 then 0 else (if s[0] == c then 1 else 0) + Count(s[1..], c)
  }

  /** `_, subject, obj = key.split(":")`: defined only when the key splits
      into exactly three pieces; any other count raises ValueError. The
      first piece is discarded unchecked. */
  function ParseKey(k: string): (r: Option<KeyPair>)
    ensures r.Some? <==> Count(k, Sep) == 2
    ensures r.Some? ==> ColonFree(r.value.subject) && ColonFree(r.value.obj)
  {
    SplitCount(k, Sep);
    var parts := Split(k, Sep);
    if |parts| == 3 then Some(KeyPair(parts[1], parts[2])) else None
  }

  /** Joining the pieces of a split gives back the string. */
  lemma {:induction false} JoinSplit(s: string, sep: char)
    ensures Join(Split(s, sep), sep) == s
    decreases |s|
  {
    if sep in s {
      var i := IndexOf(s, sep);
      JoinSplit(s[i + 1..], sep);
      assert s == s[..i] + [sep] + s[i + 1..];
    }
  }

  /** The first separator of `a + [sep] + b` is the one after `a` when `a`
      holds none. */
  lemma {:induction false} IndexOfAfterFree(a: string, sep: char, b: string)
    requires sep !in a
    ensures IndexOf(a + [sep] + b, sep) == |a|
  {
    if |a| > 0 {
      assert (a + [sep] + b)[1..] == a[1..] + [sep] + b;
      IndexOfAfterFree(a[1..], sep, b);
    }
  }

  /** Splitting a join of separator-free pieces gives back the pieces. */
  lemma {:induction false} SplitJoin(parts: seq<string>, sep: char)
    requires |parts| >= 1
    requires forall i :: 0 <= i < |parts| ==> sep !in parts[i]
    ensures Split(Join(parts, sep), sep) == parts
  {
    if |parts| > 1 {
      var s := Join(parts, sep);
      var rest := Join(parts[1..], sep);
      assert s == parts[0] + [sep] + rest;
      assert s[|parts[0]|] == sep;
      IndexOfAfterFree(parts[0], sep, rest);
      assert s[..|parts[0]|] == parts[0];
      assert s[|parts[0]| + 1..] == rest;
      SplitJoin(parts[1..], sep);
    } else {
      assert Join(parts, sep) == parts[0];
    }
  }

  lemma {:induction false} CountAppend(a: string, b: string, c: char)
    ensures Count(a + b, c) == Count(a, c) + Count(b, c)
  {
    if |a| > 0 {
      assert (a + b)[1..] == a[1..] + b;
      CountAppend(a[1..], b, c);
    } else {
      assert a + b == b;
    }
  }

  lemma {:induction false} CountZeroIsAbsent(s: string, c: char)
    ensures Count(s, c) == 0 <==> c !in s
  {
    if |s| > 0 {
      CountZeroIsAbsent(s[1..], c);
      assert s == [s[0]] + s[1..];
    }
  }

  /** A split yields one more piece than there are separators. */
  lemma {:induction false} SplitCount(s: string, sep: char)
    ensures |Split(s, sep)| == Count(s, sep) + 1
    decreases |s|
  {
    if sep in s {
      var i := IndexOf(s, sep);
      SplitCount(s[i + 1..], sep);
      assert s == s[..i] + [sep] + s[i + 1..];
      CountAppend(s[..i] + [sep], s[i + 1..], sep);
      CountAppend(s[..i], [sep], sep);
      CountZeroIsAbsent(s[..i], sep);
    } else {
      CountZeroIsAbsent(s, sep);
    }
  }

  /** The key of a pair is the three pieces `perms`, subject and object
      joined by ':'. */
  lemma FormatIsJoin(subject: Id, obj: Id)
    ensures FormatKey(subject, obj) == Join(["perms", subject, obj], Sep)
  {
    var parts := ["perms", subject, obj];
    assert Join(parts[1..], Sep) == subject + [Sep] + Join(parts[2..], Sep);
  }

  /** Parsing the key built from colon-free `subject` and `obj` gives back
      the pair. */
  lemma ParseFormat(subject: Id, obj: Id)
    requires ColonFree(subject) && ColonFree(obj)
    ensures ParseKey(FormatKey(subject, obj)) == Some(KeyPair(subject, obj))
  {
    FormatIsJoin(subject, obj);
    SplitJoin(["perms", subject, obj], Sep);
  }

  /** A ':' inside either id makes its key split into more than three
      pieces, so the key cannot be parsed back. */
  lemma ColonBreaksParse(subject: Id, obj: Id)
    requires !ColonFree(subject) || !ColonFree(obj)
    ensures ParseKey(FormatKey(subject, obj)) == None
  {
    var k := FormatKey(subject, obj);
    SplitCount(k, Sep);
    assert k == Prefix + (subject + ([Sep] + obj));
    CountAppend(Prefix, subject + ([Sep] + obj), Sep);
    CountAppend(subject, [Sep] + obj, Sep);
    CountAppend([Sep], obj, Sep);
    CountZeroIsAbsent(subject, Sep);
    CountZeroIsAbsent(obj, Sep);
    assert Count(Prefix, Sep) == 1;
    assert Count([Sep], Sep) == 1;
  }

  /** A key round-trips exactly when both of its ids are colon-free. */
  lemma ParseFormatIff(subject: Id, obj: Id)
    ensures (ParseKey(FormatKey(subject, obj)) == Some(KeyPair(subject, obj)))
              <==> (ColonFree(subject) && ColonFree(obj))
  {
    if ColonFree(subject) && ColonFree(obj) {
      ParseFormat(subject, obj);
    } else {
      ColonBreaksParse(subject, obj);
    }
  }

  /** Every permission key that parses is the key of the pair it parses to,
      and that pair is colon-free. */
  lemma FormatParse(k: string)
    requires IsPermKey(k)
    requires ParseKey(k).Some?
    ensures ColonFree(ParseKey(k).value.subject) && ColonFree(ParseKey(k).value.obj)
    ensures FormatKey(ParseKey(k).value.subject, ParseKey(k).value.obj) == k
  {
    var parts := Split(k, Sep);
    assert k == "perms" + [Sep] + k[|Prefix|..];
    IndexOfAfterFree("perms", Sep, k[|Prefix|..]);
    assert parts[0] == "perms";
    JoinSplit(k, Sep);
    assert Join(parts[2..], Sep) == parts[2];
    assert Join(parts[1..], Sep) == parts[1] + [Sep] + parts[2];
  }

  /** Distinct colon-free pairs have distinct keys. */
  lemma FormatKeyInjective(s1: Id, o1: Id, s2: Id, o2: Id)
    requires ColonFree(s1) && ColonFree(o1) && ColonFree(s2) && ColonFree(o2)
    requires FormatKey(s1, o1) == FormatKey(s2, o2)
    ensures s1 == s2 && o1 == o2
  {
    ParseFormat(s1, o1);
    ParseFormat(s2, o2);
  }
}

=== FILE: triples.dfy ===
/** Permission triples and the filters that select them. */
module Triples {

  /** A subject or object identifier, in its canonical text form. */
  type Id = string

  /** An action name such as "read" or "write". */
  type Predicate = string

  /** The fact "subject may perform predicate on object". */
  datatype Triple = Triple(subject: Id, pred: Predicate, obj: Id)

  /** The three optional restrictions of `read` and `delete`. An absent
      argument and an empty collection are both the empty sequence: the
      adapters only ever test a component for truthiness. */
  datatype Filter = Filter(subjects: seq<Id>, predicates: seq<Predicate>, objects: seq<Id>)

  /** The filter of a call made with no arguments. */
  const Unfiltered: Filter := Filter([], [], [])

  predicate IsUnfiltered(f: Filter)
  {
    |f.subjects| == 0 && |f.predicates| == 0 && |f.objects| == 0
  }

  /** One component constrains its field only when it is non-empty; then the
      field must be one of its members (OR within a component). */
  predicate Admits<T(==)>(component: seq<T>, x: T)
  {
    |component| == 0 || x in component
  }

  /** AND across the three components. */
  predicate Matches(f: Filter, t: Triple)
  {
    && Admits(f.subjects, t.subject)
    && Admits(f.predicates, t.pred)
    && Admits(f.objects, t.obj)
  }

  /** The three fields of a triple, as the stores name their columns. */
  datatype Field = SubjectField | PredicateField | ObjectField

  /** The filter component that restricts a field. */
  function Component(f: Filter, fld: Field): seq<string>
  {
    match fld
    case SubjectField => f.subjects
    case PredicateField => f.predicates
    case ObjectField => f.objects
  }

  /** A triple's value in a field. */
  function Value(t: Triple, fld: Field): string
  {
    match fld
    case SubjectField => t.subject
    case PredicateField => t.pred
    case ObjectField => t.obj
  }

  /** A filter match, read field by field: every non-empty component holds
      the triple's value in its field. */
  lemma MatchesByField(f: Filter, t: Triple)
    ensures Matches(f, t) <==>
              forall fld :: |Component(f, fld)| > 0 ==> Value(t, fld) in Component(f, fld)
  {
    if !Matches(f, t) {
      if !Admits(f.subjects, t.subject) {
        assert !(|Component(f, SubjectField)| > 0 ==> Value(t, SubjectField) in Component(f, SubjectField));
      } else if !Admits(f.predicates, t.pred) {
        assert !(|Component(f, PredicateField)| > 0 ==> Value(t, PredicateField) in Component(f, PredicateField));
      } else {
        assert !(|Component(f, ObjectField)| > 0 ==> Value(t, ObjectField) in Component(f, ObjectField));
      }
    }
  }

  /** A filter with no non-empty component matches every triple. */
  lemma UnfilteredMatchesAll(f: Filter, t: Triple)
    requires IsUnfiltered(f)
    ensures Matches(f, t)
  {
  }

  /** Matching a filter is matching each of its single-component parts. */
  lemma MatchesIsConjunction(f: Filter, t: Triple)
    ensures Matches(f, t) <==>
              && Matches(Filter(f.subjects, [], []), t)
              && Matches(Filter([], f.predicates, []), t)
              && Matches(Filter([], [], f.objects), t)
  {
  }

  /** `f` with the component of `fld` replaced by `c`. */
  function WithComponent(f: Filter, fld: Field, c: seq<string>): (g: Filter)
    ensures Component(g, fld) == c
    ensures forall other :: other != fld ==> Component(g, other) == Component(f, other)
  {
    match fld
    case SubjectField => f.(subjects := c)
    case PredicateField => f.(predicates := c)
    case ObjectField => f.(objects := c)
  }

  /** Within any one non-empty component, matching is a disjunction over its
      members: splitting the component's list in two, a triple passes iff it
      passes with one part or the other. */
  lemma ComponentIsDisjunction(f: Filter, fld: Field, a: seq<string>, b: seq<string>, t: Triple)
    requires |a| > 0 && |b| > 0
    ensures Matches(WithComponent(f, fld, a + b), t) <==>
              Matches(WithComponent(f, fld, a), t) || Matches(WithComponent(f, fld, b), t)
  {
  }
}
